=== FILE: README.md ===
# Open/R netlink layer: in-memory store, address façade and message frame

This project models three pieces of Open/R's routing-netlink layer in Dafny and proves properties of the model.

- **The in-memory netlink store** (`FakeNetlinkProtocolSocket`). It stands in for the kernel in tests. It holds:
  - links keyed by ifIndex;
  - one address list per link;
  - two disjoint route tables. MPLS routes are keyed by (protocol, label); unicast routes are keyed by (protocol, destination).

  Every mutation returns an errno-style code. In the model each operation is a pure function from a `Store` to a `Reply`, which holds the new store and the code.
- **The address/link façade** (`NetlinkSystemHandler`). It covers:
  - joining links with their addresses;
  - resolving an interface name to its index;
  - issuing batches of address adds and deletes, with the scope inferred from the address class;
  - filtering an interface's addresses by family and scope;
  - the sync diff;
  - folding the batch's return codes, where `EEXIST` and `EADDRNOTAVAIL` count as success.

  Module `SyncCorrectness` composes the façade with the store as its backend. It proves that a sync leaves exactly the desired prefixes reported for the requested family and scope, when every desired prefix is of that family and none is already on the interface under another scope. It also proves that a repeated sync, on any valid store, leaves the store unchanged.
- **The netlink message frame** (`NetlinkMessage`). It covers:
  - the 4096-byte payload buffer, with attribute and sub-attribute appends;
  - the request-type tag;
  - the object-receive callbacks, which fault unless the request kind overrides them;
  - the one-shot completion status that becomes the value of the request's future.

Every future of the original resolves immediately here. A thrown exception or `CHECK` failure becomes the `Failure` branch of a `Result`.

Files:
- `wrappers.dfy`: `Option` and `Result`.
- `netlink_types.dfy`: the kernel constants, the IP address, prefix, link, address and route values, the route key, and scope inference.
- `fake_socket.dfy`: the store.
- `system_handler.dfy`: the façade.
- `sync_correctness.dfy`: end-to-end properties of the façade on the store.
- `netlink_message.dfy`: the message frame.

## Model

| member | source | states |
|---|---|---|
| NetlinkTypes.InferScope | openr/nl/tests/FakeNetlinkProtocolSocket.cpp:35-41 | host scope exactly for loopback addresses, link scope exactly for link-local addresses that are not loopback, universe scope exactly for the rest |
| NetlinkTypes.KeyOf | openr/nl/tests/FakeNetlinkProtocolSocket.cpp:50-55 | an MPLS route is keyed by (protocol, label), any other route by (protocol, destination); the key keeps the route's protocol |
| FakeNetlinkSocket.Upsert | openr/nl/tests/FakeNetlinkProtocolSocket.cpp:52-54 | inserting into a keyed table keeps keys unique, contains the new route, and keeps exactly the old routes with other keys |
| FakeNetlinkSocket.Erase | openr/nl/tests/FakeNetlinkProtocolSocket.cpp:65-67 | erasing a key keeps exactly the routes with other keys; the table shrinks by one iff the key was present |
| FakeNetlinkSocket.AddRoute | openr/nl/tests/FakeNetlinkProtocolSocket.cpp:47-57 | always returns 0; the route is in its own table, replacing the one with its key; the other table, the links and the addresses are untouched; the store invariant is kept |
| FakeNetlinkSocket.DeleteRoute | openr/nl/tests/FakeNetlinkProtocolSocket.cpp:59-71 | returns 0 iff a route with the key existed, which is then gone; otherwise returns positive ESRCH with the store unchanged; the other table is untouched |
| FakeNetlinkSocket.FilterRoutes | openr/nl/tests/FakeNetlinkProtocolSocket.cpp:80-97 | a route is kept iff each nonzero filter field (protocol, family, type) equals the route's; a kept route occurs exactly as often as in the table, so nothing is duplicated |
| FakeNetlinkSocket.GetRoutes | openr/nl/tests/FakeNetlinkProtocolSocket.cpp:73-114 | returns exactly the stored routes that pass the filter, each as often as the two tables hold it, every MPLS route before every unicast route |
| FakeNetlinkSocket.AddIfAddress | openr/nl/tests/FakeNetlinkProtocolSocket.cpp:116-134 | -ENXIO iff the interface is unknown or the prefix absent; -EEXIST iff the interface already holds the prefix; otherwise appends the address and returns 0; other interfaces untouched; no duplicate prefix ever arises |
| FakeNetlinkSocket.PrefixIndex | openr/nl/tests/FakeNetlinkProtocolSocket.cpp:145-146 | the position of the first entry carrying the prefix, or the list length iff none does |
| FakeNetlinkSocket.RemoveFirstDistinct | openr/nl/tests/FakeNetlinkProtocolSocket.cpp:145-149 | on a list without repeated prefixes, erasing the first match removes that prefix entirely, keeps every other entry, and shortens the list by one |
| FakeNetlinkSocket.DeleteIfAddress | openr/nl/tests/FakeNetlinkProtocolSocket.cpp:136-154 | -ENXIO under the same conditions as add; 0 iff the prefix was on the interface, which then no longer holds it; -EADDRNOTAVAIL with the store unchanged otherwise; on success the interface keeps every entry with another prefix and gains nothing; other interfaces untouched |
| FakeNetlinkSocket.ConcatLists | openr/nl/tests/FakeNetlinkProtocolSocket.cpp:158-161 | the concatenation holds an address iff one of the enumerated lists holds it; with one link per index and entries on their own key, each address occurs exactly as often as in its own interface's list |
| FakeNetlinkSocket.GetAllIfAddresses | openr/nl/tests/FakeNetlinkProtocolSocket.cpp:156-163 | returns an address iff some interface's list holds it, and exactly as often as its interface's list does |
| FakeNetlinkSocket.GetAllLinks | openr/nl/tests/FakeNetlinkProtocolSocket.cpp:177-184 | returns every stored link; one per ifIndex, covering exactly the interfaces that have address lists |
| FakeNetlinkSocket.AddLink | openr/nl/tests/FakeNetlinkProtocolSocket.cpp:165-175 | -EEXIST with the store unchanged iff the ifIndex is known; otherwise stores the link with an empty address list, which keeps the address-list keys equal to the link keys |
| FakeNetlinkSocket.CreateIfAddress | openr/nl/tests/FakeNetlinkProtocolSocket.cpp:29-43 | the address is on the given interface with the given prefix, and its scope is host, link or universe by the address class |
| FakeNetlinkSocket.AddThenDeleteAddress | openr/nl/tests/FakeNetlinkProtocolSocket.cpp:116-154 | deleting an address that was just added returns 0 and restores the store |
| FakeNetlinkSocket.AddThenDeleteRoute | openr/nl/tests/FakeNetlinkProtocolSocket.cpp:47-71 | adding a route under a fresh key and deleting it returns 0 and restores the store |
| FakeNetlinkSocket.AddRouteIdempotent | openr/nl/tests/FakeNetlinkProtocolSocket.cpp:48-57 | adding the same route twice has the effect of adding it once |
| FakeNetlinkSocket.OneRoutePerKey | openr/nl/tests/FakeNetlinkProtocolSocket.cpp:52-54 | two routes in one table with the same key are the same route |
| SystemHandler.GetIfIndex | openr/platform/NetlinkSystemHandler.cpp:217-226 | none iff no link has the name; otherwise the index of the first link that has it |
| SystemHandler.CreateLinkEntries | openr/platform/NetlinkSystemHandler.cpp:47-55 | one entry per distinct link index, carrying that link's name and up-state and no networks |
| SystemHandler.NetworksOfMembers | openr/platform/NetlinkSystemHandler.cpp:58-61 | the networks gathered for an interface are exactly the prefixes of the addresses on it |
| SystemHandler.AddNetworks | openr/platform/NetlinkSystemHandler.cpp:57-61 | succeeds iff every address names a known interface and has a prefix, else fails on the first that does not; on success each entry gains exactly its own addresses' prefixes, in order |
| SystemHandler.GetAllLinks | openr/platform/NetlinkSystemHandler.cpp:39-70 | succeeds iff every address is on a known link and has a prefix (else fails with the first bad address's error); on success one entry per distinct link index, each carrying its link's fields and exactly its addresses' prefixes |
| SystemHandler.FoldReturnCodes | openr/platform/NetlinkSystemHandler.cpp:118-127 | succeeds iff every code's absolute value is 0, EEXIST or EADDRNOTAVAIL; otherwise fails with the absolute value of the first other code |
| SystemHandler.ApplyRequests | openr/platform/NetlinkSystemHandler.cpp:110-114 | one code per request; links, routes and interfaces no request targets are unchanged; the store invariant is kept; nothing is rolled back |
| SystemHandler.ApplyConcat | openr/platform/NetlinkSystemHandler.cpp:174-202 | issuing two batches back to back is issuing their concatenation |
| SystemHandler.AddRemoveRequests | openr/platform/NetlinkSystemHandler.cpp:96-115 | one request per prefix, in order, all add or all delete, all for the interface, with the scope implied by the address class |
| SystemHandler.AddRemoveIfAddresses | openr/platform/NetlinkSystemHandler.cpp:88-128 | an unknown interface name fails with the store unchanged; links are never changed; the store invariant is kept |
| SystemHandler.FilterIfAddresses | openr/platform/NetlinkSystemHandler.cpp:141-154 | reports a prefix iff an address with it is on the interface, of the family (unless zero) and of exactly the scope; fails iff a selected address has no prefix |
| SystemHandler.FilterAppend | openr/platform/NetlinkSystemHandler.cpp:141-155 | the filter keeps order: filtering a concatenation concatenates the filtered parts |
| SystemHandler.GetIfaceAddresses | openr/platform/NetlinkSystemHandler.cpp:130-157 | an unknown name fails; for a known name the read succeeds iff every address selected by interface, family and scope has a prefix, and otherwise fails with a missing prefix; on success it holds a prefix iff a selected address carries it |
| SystemHandler.Missing | openr/platform/NetlinkSystemHandler.cpp:175-180 | keeps exactly the elements of the first sequence that do not occur in the second |
| SystemHandler.ScopedRequests | openr/platform/NetlinkSystemHandler.cpp:182-186 | one request per prefix, all for the interface with the caller's scope; the added (or deleted) prefixes are exactly the given ones |
| SystemHandler.SyncRequests | openr/platform/NetlinkSystemHandler.cpp:170-202 | adds exactly desired minus current, deletes exactly current minus desired, all adds before all deletes, all on the interface with the caller's scope |
| SystemHandler.SyncIfaceAddresses | openr/platform/NetlinkSystemHandler.cpp:159-215 | an unknown name or a failed read fails with the store unchanged; links are never changed; the store invariant is kept |
| SyncCorrectness.IfaceAddressesOfStore | openr/platform/NetlinkSystemHandler.cpp:130-157 | on a valid store, reading an existing interface's addresses succeeds and gives the selected prefixes of that interface's own list, once each and in list order, as if only that list were filtered; as a set they are exactly the interface's selected prefixes |
| SyncCorrectness.AddStep | openr/nl/tests/FakeNetlinkProtocolSocket.cpp:116-134 | one add of the selected family with the caller's scope adds its prefix to the reported set, provided the prefix is not already there under another scope |
| SyncCorrectness.DeleteStep | openr/nl/tests/FakeNetlinkProtocolSocket.cpp:136-154 | one delete gets an acceptable code and removes exactly its prefix from the reported set |
| SyncCorrectness.ApplyScopedAdds | openr/platform/NetlinkSystemHandler.cpp:174-187 | a batch of adds gets only acceptable codes and grows the reported set by exactly the added prefixes |
| SyncCorrectness.ApplyDeletes | openr/platform/NetlinkSystemHandler.cpp:189-202 | a batch of deletes gets only acceptable codes and shrinks the reported set by exactly the deleted prefixes |
| SyncCorrectness.ApplyAddsInstall | openr/platform/NetlinkSystemHandler.cpp:110-111 | after a batch of adds, every reply is acceptable, the interface keeps every address it had, and it gains only requested addresses; its prefixes are exactly the old ones plus the requested ones |
| SyncCorrectness.ApplyDeletesClear | openr/platform/NetlinkSystemHandler.cpp:112-113 | after a batch of deletes, every reply is acceptable, the interface holds only addresses it had, and it keeps every address whose prefix was not requested; its prefixes are exactly the old ones minus the requested ones |
| SyncCorrectness.AddIfaceAddressesInstalls | openr/platform/NetlinkSystemHandler.cpp:72-78 | adding addresses to a known interface succeeds; its prefixes become exactly the old ones plus the requested ones, and no other interface changes |
| SyncCorrectness.RemoveIfaceAddressesClears | openr/platform/NetlinkSystemHandler.cpp:80-86 | removing addresses from a known interface succeeds; its prefixes become exactly the old ones minus the requested ones, and no other interface changes |
| SyncCorrectness.SyncDiffReachesDesired | openr/platform/NetlinkSystemHandler.cpp:170-202 | issuing the sync diff gets only acceptable codes and leaves the reported set equal to the desired set |
| SyncCorrectness.SyncReachesDesired | openr/platform/NetlinkSystemHandler.cpp:159-215 | a sync succeeds and afterwards reading the interface's addresses of that family and scope gives exactly the desired set; other interfaces, links and routes unchanged |
| SyncCorrectness.SyncDiffEmpty | openr/platform/NetlinkSystemHandler.cpp:175-195 | when current and desired agree as sets, the diff issues nothing |
| SyncCorrectness.SyncInstallsDesired | openr/platform/NetlinkSystemHandler.cpp:170-202 | on any interface, the sync diff gets only acceptable codes, leaves every desired prefix on the interface at some scope, and leaves no undesired prefix reported |
| SyncCorrectness.SyncAtFixedPoint | openr/platform/NetlinkSystemHandler.cpp:159-215 | a sync against an interface that already carries every desired prefix and reports nothing undesired succeeds and changes nothing |
| SyncCorrectness.SyncIsIdempotent | openr/platform/NetlinkSystemHandler.cpp:159-215 | on any valid store and known interface, a sync succeeds, and repeating it succeeds and leaves the store as it is |
| SyncCorrectness.SyncRepeatIssuesNothing | openr/platform/NetlinkSystemHandler.cpp:170-202 | when the desired prefixes are of the requested family and none sits on the interface under another scope, a repeated sync issues no request at all |
| SyncCorrectness.SyncScopeConflict | openr/platform/NetlinkSystemHandler.cpp:174-187 | a desired prefix already on the interface under another scope makes the sync succeed while the reported set stays empty |
| NetlinkMessage.Expects | openr/nl/NetlinkMessage.h:57-65 | each request kind expects at most one object kind: links exactly for GET_ALL_LINKS, routes exactly for the two route gets, neighbors exactly for GET_ALL_NEIGHBORS, and addresses exactly for the two address gets and the address add; the other add and delete requests expect none |
| NetlinkMessage.Create | openr/nl/NetlinkMessage.h:41-55 | a fresh message has length zero, no attribute, nothing received and a pending status; it carries the request tag it is given |
| NetlinkMessage.CreateBase | openr/nl/NetlinkMessage.h:41-46 | the base message overrides no receive callback |
| NetlinkMessage.CreateRequest | openr/nl/NetlinkMessage.h:57-65 | a request overrides exactly the callbacks its type expects |
| NetlinkMessage.SetMessageType | openr/nl/NetlinkMessage.h:125-129 | reading the type back gives the value set; nothing else changes |
| NetlinkMessage.RunTagIsLastSet | openr/nl/NetlinkMessage.h:125-129 | over any run that does not fault, `GetMessageType` returns the tag last given by `SetMessageType`, or the one the message was created with if none was set; no other event changes it |
| NetlinkMessage.AddAttributes | openr/nl/NetlinkMessage.h:131-140 | ENOBUFS with the message unchanged iff the aligned end plus the attribute's aligned size would pass 4096 bytes; otherwise 0, and the header length grows to cover the attribute and stays within capacity |
| NetlinkMessage.AddSubAttributes | openr/nl/NetlinkMessage.h:142-145 | none iff the parent would pass capacity; otherwise only the parent's length grows, by the sub-attribute's space, and the header length is unchanged |
| NetlinkMessage.NestingKeepsHeader | openr/nl/NetlinkMessage.h:142-145 | any run of nested appends leaves the header length and every other attribute as they were; the parent only grows, and never past 4096 bytes once within it |
| NetlinkMessage.AddAllKeepsCapacity | openr/nl/NetlinkMessage.h:26-37 | any run of appends keeps the message within 4096 bytes; its length grows by exactly the accepted attributes' space |
| NetlinkMessage.FreshMessageHoldsAtMost1024 | openr/nl/NetlinkMessage.h:26-55 | a fresh message accepts at most 1024 attributes |
| NetlinkMessage.RcvdObject | openr/nl/NetlinkMessage.h:67-85 | receiving faults iff the request kind does not override the object's callback; otherwise the object is recorded |
| NetlinkMessage.BaseMessageRejectsAll | openr/nl/NetlinkMessage.h:67-85 | the base message faults on every object |
| NetlinkMessage.RequestAcceptsOnlyExpected | openr/nl/NetlinkMessage.h:104-109 | a request receives an object iff its type expects that kind; an ADD_ADDR request receives addresses and nothing else; address deletes and route adds and deletes receive none |
| NetlinkMessage.GetSemiFuture | openr/nl/NetlinkMessage.h:87-91 | the future is handed out once; a second call faults |
| NetlinkMessage.SetReturnStatus | openr/nl/NetlinkMessage.h:93-101 | the first call resolves the future with the status; a second call faults and changes nothing |
| NetlinkMessage.Destroy | openr/nl/NetlinkMessage.h:93-101 | teardown succeeds iff the status was set, yielding that status; a pending message breaks its promise |
| NetlinkMessage.RunKeepsFirstStatus | openr/nl/NetlinkMessage.h:87-101 | over any run that does not fault, the header length stays within capacity and the future holds the first status set, never a later one |
| NetlinkMessage.CompletedRequestMayBeDestroyed | openr/nl/NetlinkMessage.h:93-101 | a request that set its status can be torn down, and its future holds the first status set |

Notes on the model:
- **Store invariant.** The source's maps keep one route per key and one list per link by construction. The model's sequences keep them through `Valid`:
  - `EmptyStoreIsValid` establishes it;
  - every mutation preserves it;
  - the route operations require it.
- **Error signs.** The address operations return negative errno values. `deleteRoute` returns positive `ESRCH`. The model keeps both.
- **Enumeration order.** The source enumerates hash maps in unspecified order. The model enumerates in insertion order:
  - links in the order they were added;
  - an interface's addresses in the order they were added;
  - each route table in the order of first insertion.

  Contracts only promise what the source fixes: membership and multiplicity, and MPLS routes before unicast routes.
- **Address classification.** `isLoopback` and `isLinkLocal` are given their usual definitions:
  - loopback is 127.0.0.0/8, `::1`, or a v4-mapped 127.0.0.0/8 address;
  - link-local is 169.254.0.0/16 or fe80::/10.

  The scope properties are stated over these predicates and do not depend on their details.
- **Sync precondition.** The sync reaches the desired set only if no desired prefix already sits on the interface under another scope. Otherwise the store answers `-EEXIST`, which the fold counts as success, and the address keeps its old scope. `SyncScopeConflict` exhibits this with a concrete store.
- **Receive callbacks.** The header says an RTM_NEWADDR reply can belong to a GET_ALL_ADDRS or an ADD_ADDR request (NetlinkMessage.h:104-109). The model therefore lets an ADD_ADDR request receive the echoed address, as well as the address gets. The other add and delete requests receive only their ack.
- **Attribute arithmetic.** NetlinkMessage.cpp, which holds the bodies of `addAttributes` and `addSubAttributes`, is not part of this model. Their length arithmetic follows the rtnetlink layout of section 2.3.2 of RFC 3549: a 4-byte attribute header, with attributes aligned to 4 bytes. On overflow the sub-attribute append returns a null pointer.

## Left out

- `getAllNeighbors` of the store: its body is a fatal "not implemented" check.
- `utils::createLink`: how `LinkBuilder::setFlags` combines the running and loopback flags is not visible. Links are built directly as (ifIndex, name, up).
- Parsing of address strings in `createIfAddress` (`folly::IPAddress::createNetwork`): the model takes the parsed prefix.
- Thrift conversions (`toIpPrefix`, `toIPNetwork`, `thrift::Link`): one prefix type serves both sides, so they are identities.
- folly futures, `collectAll`, `deferValue` and `.get()`: every call completes at once. There is no concurrency. Thrown exceptions are `Failure` values.
- Byte contents of the message buffer, and the copying of attribute data: only lengths are modelled.
- The real kernel socket, sequence numbers, the read loop, logging, flags and the periodic resync timer.
- Integer widths: int16 family and scope, the 32-bit header length, and `std::abs` of the most negative int. The constants and lengths involved stay far inside these ranges. The 16-bit attribute length field is shown never to overflow.
- FakeNetlinkSocket.AddRoute: requires an MPLS route to carry a label. The source reads the optional label with `.value()`, which throws when it is absent.
- FakeNetlinkSocket.DeleteRoute: requires an MPLS route to carry a label, for the same reason as `AddRoute`.
- SystemHandler.GetAllLinks: returns the entries in link order. The source's order comes from a hash map and is unspecified.
- NetlinkMessage.Create: the wire `nlmsg_type` that `NetlinkMessage(int type)` writes into the header is not modelled. No constructor shown sets the request tag `messageType_`; only `setMessageType` does, from the subclasses, which are not part of this model. A fresh message's request tag is therefore taken as given.
- NetlinkMessage.RcvdObject: an overriding callback is modelled as recording the object. What each subclass does with it is not part of this model.
- SyncCorrectness.SyncReachesDesired: holds under the scope precondition above, and also requires every desired prefix to belong to the requested family.
- SyncCorrectness.SyncIsIdempotent: promises an unchanged store and a successful result, not that the repeated sync stays silent. On a scope or family conflict it re-sends the add and gets -EEXIST, which the sync accepts.
- SyncCorrectness.SyncRepeatIssuesNothing: has the same two preconditions. On a scope or family conflict the repeated sync sends the add again and gets -EEXIST; `SyncIsIdempotent` shows that the store still does not change.
- NetlinkMessage.AddSubAttributes: the capacity check is relative to the parent attribute only, as the model keeps no buffer offsets. A nested append to the last attribute of a nearly full frame can therefore pass the end of the buffer while `Fits` still holds.

=== FILE: fake_socket.dfy ===
/**
 * The in-memory netlink store that stands in for the kernel: links keyed by
 * ifIndex, one address list per link, and two disjoint route tables (MPLS
 * routes keyed by (protocol, label), unicast routes keyed by (protocol,
 * destination)). Every mutation returns the new store together with an
 * errno-style code; every future of the original is resolved immediately.
 */
module FakeNetlinkSocket {
  import opened Wrappers
  import opened NetlinkTypes

  /**
   * The store. The original keeps hash maps; here the links and the two route
   * tables are sequences in insertion order (the order in which the model
   * enumerates them), and `Valid` states the map discipline they obey.
   */
  datatype Store = Store(
    links: seq<Link>,
    ifAddrs: map<int, seq<IfAddress>>,
    mplsRoutes: seq<Route>,
    unicastRoutes: seq<Route>)

  /** A mutation's outcome: the new store and the errno-style return code. */
  datatype Reply = Reply(store: Store, code: int)

  const EmptyStore: Store := Store([], map[], [], [])

  // ---------------------------------------------------------------------------
  // Representation invariant

  function LinkIndices(links: seq<Link>): set<int> {
    set l | l in links :: l.ifIndex
  }

  predicate UniqueIfIndices(links: seq<Link>) {
    forall i, j | 0 <= i < j < |links| :: links[i].ifIndex != links[j].ifIndex
  }

  predicate HasPrefix(l: seq<IfAddress>, p: Option<Prefix>) {
    exists i | 0 <= i < |l| :: l[i].prefix == p
  }

  predicate DistinctPrefixes(l: seq<IfAddress>) {
    forall i, j | 0 <= i < j < |l| :: l[i].prefix != l[j].prefix
  }

  /** The address list stored under key `k`: every entry is on `k`, has a prefix, and no prefix repeats. */
  predicate WellFormedList(k: int, l: seq<IfAddress>) {
    && (forall a | a in l :: a.ifIndex == k && a.prefix.Some?)
    && DistinctPrefixes(l)
  }

  predicate Keyed(t: seq<Route>) {
    forall r | r in t :: HasKey(r)
  }

  predicate UniqueKeys(t: seq<Route>)
    requires Keyed(t)
  {
    forall i, j | 0 <= i < j < |t| :: KeyOf(t[i]) != KeyOf(t[j])
  }

  /** A route table is a map from route key to route. */
  predicate IsTable(t: seq<Route>) {
    Keyed(t) && UniqueKeys(t)
  }

  predicate MplsOnly(t: seq<Route>) {
    forall r | r in t :: r.family == AF_MPLS
  }

  predicate NoMpls(t: seq<Route>) {
    forall r | r in t :: r.family != AF_MPLS
  }

  /**
   * Every store reachable from `EmptyStore` satisfies this: one link per
   * ifIndex, an address list for exactly the known links, no duplicate prefix
   * on an interface, and two route tables that hold only their own family.
   */
  predicate Valid(s: Store) {
    && UniqueIfIndices(s.links)
    && s.ifAddrs.Keys == LinkIndices(s.links)
    && (forall k | k in s.ifAddrs :: WellFormedList(k, s.ifAddrs[k]))
    && IsTable(s.mplsRoutes) && MplsOnly(s.mplsRoutes)
    && IsTable(s.unicastRoutes) && NoMpls(s.unicastRoutes)
  }

  lemma EmptyStoreIsValid()
    ensures Valid(EmptyStore)
  {
  }

  // ---------------------------------------------------------------------------
  // Route tables

  /** Insert `r`, replacing the route that has the same key if there is one. */
  function Upsert(t: seq<Route>, r: Route): (t': seq<Route>)
    requires IsTable(t) && HasKey(r)
    ensures IsTable(t')
    ensures r in t'
    ensures forall x | x in t' :: x == r || (x in t && KeyOf(x) != KeyOf(r))
    ensures forall x | x in t && KeyOf(x) != KeyOf(r) :: x in t'
  {
    if t == [] then [r]
    else if KeyOf(t[0]) == KeyOf(r) then
      assert forall x | x in t[1..] :: KeyOf(x) != KeyOf(r) by {
        forall x | x in t[1..] ensures KeyOf(x) != KeyOf(r) {
          var j :| 0 <= j < |t[1..]| && t[1..][j] == x;
          assert t[j + 1] == x;
        }
      }
      [r] + t[1..]
    else
      var rest := Upsert(t[1..], r);
      assert forall x | x in rest :: KeyOf(x) != KeyOf(t[0]) by {
        forall x | x in rest ensures KeyOf(x) != KeyOf(t[0]) {
          if x != r {
            assert x in t[1..];
            var j :| 0 <= j < |t[1..]| && t[1..][j] == x;
            assert t[j + 1] == x;
          }
        }
      }
      [t[0]] + rest
  }

  /** Remove every route whose key is `k` (at most one in a table). */
  function Erase(t: seq<Route>, k: RouteKey): (t': seq<Route>)
    requires IsTable(t)
    ensures IsTable(t')
    ensures forall x :: x in t' <==> x in t && KeyOf(x) != k
    ensures |t'| == |t| <==> forall x | x in t :: KeyOf(x) != k
    ensures |t'| == |t| || |t'| == |t| - 1
  {
    if t == [] then []
    else
      var rest := Erase(t[1..], k);
      assert forall x | x in t[1..] :: KeyOf(x) != KeyOf(t[0]) by {
        forall x | x in t[1..] ensures KeyOf(x) != KeyOf(t[0]) {
          var j :| 0 <= j < |t[1..]| && t[1..][j] == x;
          assert t[j + 1] == x;
        }
      }
      if KeyOf(t[0]) == k then
        rest
      else
        assert t[0] in t;
        [t[0]] + rest
  }

  /** Erasing a key that no route carries leaves the table as it is. */
  lemma {:induction false} EraseAbsent(t: seq<Route>, k: RouteKey)
    requires IsTable(t)
    requires forall x | x in t :: KeyOf(x) != k
    ensures Erase(t, k) == t
  {
    if t != [] {
      assert t[0] in t;
      EraseAbsent(t[1..], k);
    }
  }

  /** The table `addRoute` and `deleteRoute` work on: MPLS routes go to the MPLS table. */
  function TableOf(s: Store, r: Route): seq<Route> {
    if r.family == AF_MPLS then s.mplsRoutes else s.unicastRoutes
  }

  /**
   * addRoute: blindly replaces the route with the same key in the route's own
   * table and always returns 0.
   */
  function AddRoute(s: Store, route: Route): (r: Reply)
    requires Valid(s) && HasKey(route)
    ensures r.code == 0
    ensures Valid(r.store)
    ensures r.store.links == s.links && r.store.ifAddrs == s.ifAddrs
    ensures route in TableOf(r.store, route)
    ensures forall x | x in TableOf(r.store, route) :: x == route || (x in TableOf(s, route) && KeyOf(x) != KeyOf(route))
    ensures forall x | x in TableOf(s, route) && KeyOf(x) != KeyOf(route) :: x in TableOf(r.store, route)
    ensures route.family == AF_MPLS ==> r.store.unicastRoutes == s.unicastRoutes
    ensures route.family != AF_MPLS ==> r.store.mplsRoutes == s.mplsRoutes
  {
    if route.family == AF_MPLS then
      Reply(s.(mplsRoutes := Upsert(s.mplsRoutes, route)), 0)
    else
      Reply(s.(unicastRoutes := Upsert(s.unicastRoutes, route)), 0)
  }

  /**
   * deleteRoute: erases the entry with the route's key from the route's own
   * table; returns 0 when one was erased and positive ESRCH otherwise.
   */
  function DeleteRoute(s: Store, route: Route): (r: Reply)
    requires Valid(s) && HasKey(route)
    ensures r.code == 0 || r.code == ESRCH
    ensures r.code == 0 <==> exists x | x in TableOf(s, route) :: KeyOf(x) == KeyOf(route)
    ensures r.code == ESRCH ==> r.store == s
    ensures Valid(r.store)
    ensures r.store.links == s.links && r.store.ifAddrs == s.ifAddrs
    ensures forall x :: x in TableOf(r.store, route) <==> x in TableOf(s, route) && KeyOf(x) != KeyOf(route)
    ensures route.family == AF_MPLS ==> r.store.unicastRoutes == s.unicastRoutes
    ensures route.family != AF_MPLS ==> r.store.mplsRoutes == s.mplsRoutes
  {
    var table := TableOf(s, route);
    var erased := Erase(table, KeyOf(route));
    var count := |table| - |erased|;
    var s' := if route.family == AF_MPLS then s.(mplsRoutes := erased) else s.(unicastRoutes := erased);
    if count != 0 then Reply(s', 0)
    else
      assert erased == table by { EraseAbsent(table, KeyOf(route)); }
      Reply(s, ESRCH)
  }

  /** A getRoutes filter field matches when it is zero (wildcard) or equal. */
  predicate Matches(filter: Route, r: Route) {
    && (filter.protocolId == 0 || filter.protocolId == r.protocolId)
    && (filter.family == 0 || filter.family == r.family)
    && (filter.routeType == 0 || filter.routeType == r.routeType)
  }

  function FilterRoutes(t: seq<Route>, filter: Route): (r: seq<Route>)
    ensures forall x :: x in r <==> x in t && Matches(filter, x)
    ensures forall x :: multiset(r)[x] == if Matches(filter, x) then multiset(t)[x] else 0
    ensures |r| <= |t|
  {
    if t == [] then []
    else
      assert t == [t[0]] + t[1..];
      if Matches(filter, t[0]) then [t[0]] + FilterRoutes(t[1..], filter)
      else FilterRoutes(t[1..], filter)
  }

  /**
   * getRoutes: every stored route that passes the filter, the MPLS table's
   * routes before the unicast table's.
   */
  function GetRoutes(s: Store, filter: Route): (r: seq<Route>)
    ensures forall x :: x in r <==> (x in s.mplsRoutes || x in s.unicastRoutes) && Matches(filter, x)
    ensures forall x :: multiset(r)[x] == if Matches(filter, x) then multiset(s.mplsRoutes)[x] + multiset(s.unicastRoutes)[x] else 0
    ensures Valid(s) ==> forall i, j | 0 <= i < j < |r| :: r[j].family == AF_MPLS ==> r[i].family == AF_MPLS
  {
    var mpls := FilterRoutes(s.mplsRoutes, filter);
    var unicast := FilterRoutes(s.unicastRoutes, filter);
    assert Valid(s) ==> forall i | 0 <= i < |mpls + unicast| :: (mpls + unicast)[i].family == AF_MPLS <==> i < |mpls| by {
      if Valid(s) {
        forall i | 0 <= i < |mpls + unicast|
          ensures (mpls + unicast)[i].family == AF_MPLS <==> i < |mpls|
        {
          if i < |mpls| {
            assert mpls[i] in mpls;
          } else {
            assert unicast[i - |mpls|] in unicast;
          }
        }
      }
    }
    assert multiset(mpls + unicast) == multiset(mpls) + multiset(unicast);
    mpls + unicast
  }

  // ---------------------------------------------------------------------------
  // Interface addresses

  /**
   * addIfAddress: -ENXIO for an unknown interface or a missing prefix,
   * -EEXIST when the interface already holds the prefix, otherwise the
   * address is appended to the interface's list and 0 is returned.
   */
  function AddIfAddress(s: Store, a: IfAddress): (r: Reply)
    ensures r.code == -ENXIO <==> a.ifIndex !in s.ifAddrs || a.prefix.None?
    ensures r.code == -EEXIST <==> a.ifIndex in s.ifAddrs && a.prefix.Some? && HasPrefix(s.ifAddrs[a.ifIndex], a.prefix)
    ensures r.code == 0 || r.code == -ENXIO || r.code == -EEXIST
    ensures r.code != 0 ==> r.store == s
    ensures r.code == 0 ==> a.ifIndex in r.store.ifAddrs && r.store.ifAddrs[a.ifIndex] == s.ifAddrs[a.ifIndex] + [a]
    ensures r.store.links == s.links && r.store.ifAddrs.Keys == s.ifAddrs.Keys
    ensures r.store.mplsRoutes == s.mplsRoutes && r.store.unicastRoutes == s.unicastRoutes
    ensures forall k | k in s.ifAddrs && k != a.ifIndex :: r.store.ifAddrs[k] == s.ifAddrs[k]
    ensures Valid(s) ==> Valid(r.store)
  {
    if a.ifIndex !in s.ifAddrs || a.prefix.None? then Reply(s, -ENXIO)
    else if HasPrefix(s.ifAddrs[a.ifIndex], a.prefix) then Reply(s, -EEXIST)
    else Reply(s.(ifAddrs := s.ifAddrs[a.ifIndex := s.ifAddrs[a.ifIndex] + [a]]), 0)
  }

  /** The position of the first entry carrying prefix `p`, or |l| when there is none. */
  function PrefixIndex(l: seq<IfAddress>, p: Option<Prefix>): (i: nat)
    ensures i <= |l|
    ensures i < |l| <==> HasPrefix(l, p)
    ensures i < |l| ==> l[i].prefix == p
    ensures forall j | 0 <= j < i :: l[j].prefix != p
  {
    if l == [] then 0
    else if l[0].prefix == p then 0
    else
      var i := PrefixIndex(l[1..], p);
      assert forall j | 0 < j <= i :: l[j] == l[1..][j - 1];
      assert i < |l[1..]| <==> HasPrefix(l, p) by {
        if HasPrefix(l, p) {
          var k :| 0 <= k < |l| && l[k].prefix == p;
          assert l[1..][k - 1].prefix == p;
        }
      }
      1 + i
  }

  /** The list with its first entry carrying prefix `p` erased. */
  function RemoveFirst(l: seq<IfAddress>, p: Option<Prefix>): seq<IfAddress> {
    var i := PrefixIndex(l, p);
    if i < |l| then l[..i] + l[i + 1..] else l
  }

  /** On a list without repeated prefixes, removing the entry for `p` leaves none behind. */
  lemma RemoveFirstDistinct(k: int, l: seq<IfAddress>, p: Option<Prefix>)
    requires WellFormedList(k, l)
    ensures WellFormedList(k, RemoveFirst(l, p))
    ensures !HasPrefix(RemoveFirst(l, p), p)
    ensures forall a | a in RemoveFirst(l, p) :: a in l
    ensures forall a | a in l && a.prefix != p :: a in RemoveFirst(l, p)
    ensures HasPrefix(l, p) ==> |RemoveFirst(l, p)| == |l| - 1
  {
    if HasPrefix(l, p) {
      var i := PrefixIndex(l, p);
      var l' := RemoveFirst(l, p);
      forall x, y | 0 <= x < y < |l'| ensures l'[x].prefix != l'[y].prefix {
        var x' := if x < i then x else x + 1;
        var y' := if y < i then y else y + 1;
        assert l'[x] == l[x'] && l'[y] == l[y'];
      }
      forall a | a in l' ensures a in l {
        var j :| 0 <= j < |l'| && l'[j] == a;
        assert a == l[if j < i then j else j + 1];
      }
      forall j | 0 <= j < |l'| ensures l'[j].prefix != p {
        assert l'[j] == l[if j < i then j else j + 1];
      }
      forall a | a in l && a.prefix != p ensures a in l' {
        var j :| 0 <= j < |l| && l[j] == a;
        assert j != i;
        assert a == l'[if j < i then j else j - 1];
      }
    }
  }

  /**
   * deleteIfAddress: -ENXIO under the same conditions as add; removes the
   * entry with the prefix and returns 0 when there is one, else
   * -EADDRNOTAVAIL. Other interfaces are untouched.
   */
  function DeleteIfAddress(s: Store, a: IfAddress): (r: Reply)
    ensures r.code == -ENXIO <==> a.ifIndex !in s.ifAddrs || a.prefix.None?
    ensures r.code == -EADDRNOTAVAIL <==> a.ifIndex in s.ifAddrs && a.prefix.Some? && !HasPrefix(s.ifAddrs[a.ifIndex], a.prefix)
    ensures r.code == 0 || r.code == -ENXIO || r.code == -EADDRNOTAVAIL
    ensures r.code != 0 ==> r.store == s
    ensures r.code == 0 ==> a.ifIndex in r.store.ifAddrs && |r.store.ifAddrs[a.ifIndex]| == |s.ifAddrs[a.ifIndex]| - 1
    ensures r.code == 0 && Valid(s) ==> a.ifIndex in r.store.ifAddrs && !HasPrefix(r.store.ifAddrs[a.ifIndex], a.prefix)
    ensures r.code == 0 && Valid(s) ==>
      && a.ifIndex in r.store.ifAddrs
      && (forall x | x in r.store.ifAddrs[a.ifIndex] :: x in s.ifAddrs[a.ifIndex])
      && (forall x | x in s.ifAddrs[a.ifIndex] && x.prefix != a.prefix :: x in r.store.ifAddrs[a.ifIndex])
    ensures r.store.links == s.links && r.store.ifAddrs.Keys == s.ifAddrs.Keys
    ensures r.store.mplsRoutes == s.mplsRoutes && r.store.unicastRoutes == s.unicastRoutes
    ensures forall k | k in s.ifAddrs && k != a.ifIndex :: r.store.ifAddrs[k] == s.ifAddrs[k]
    ensures Valid(s) ==> Valid(r.store)
  {
    if a.ifIndex !in s.ifAddrs || a.prefix.None? then Reply(s, -ENXIO)
    else if HasPrefix(s.ifAddrs[a.ifIndex], a.prefix) then
      var l := s.ifAddrs[a.ifIndex];
      assert Valid(s) ==>
        && WellFormedList(a.ifIndex, RemoveFirst(l, a.prefix)) && !HasPrefix(RemoveFirst(l, a.prefix), a.prefix)
        && (forall x | x in RemoveFirst(l, a.prefix) :: x in l)
        && (forall x | x in l && x.prefix != a.prefix :: x in RemoveFirst(l, a.prefix)) by {
        if Valid(s) {
          RemoveFirstDistinct(a.ifIndex, l, a.prefix);
        }
      }
      Reply(s.(ifAddrs := s.ifAddrs[a.ifIndex := RemoveFirst(l, a.prefix)]), 0)
    else Reply(s, -EADDRNOTAVAIL)
  }

  /** Dropping the first link keeps the indices unique, and the first index does not recur. */
  lemma UniqueTail(links: seq<Link>)
    requires links != [] && UniqueIfIndices(links)
    ensures UniqueIfIndices(links[1..]) && links[0].ifIndex !in LinkIndices(links[1..])
  {
    forall l | l in links[1..] ensures l.ifIndex != links[0].ifIndex {
      var j :| 0 <= j < |links[1..]| && links[1..][j] == l;
      assert links[j + 1] == l;
    }
  }

  /** The list kept under a key holds no address of another interface. */
  lemma OwnKeyOnly(m: map<int, seq<IfAddress>>, k: int)
    requires EntriesOnOwnKey(m)
    ensures forall a: IfAddress | a.ifIndex != k :: multiset(if k in m then m[k] else [])[a] == 0
  {
    forall a: IfAddress | a.ifIndex != k ensures multiset(if k in m then m[k] else [])[a] == 0 {
      assert a !in (if k in m then m[k] else []);
    }
  }

  /** Concatenation of the address lists, enumerated in the order of `links`. */
  function ConcatLists(links: seq<Link>, m: map<int, seq<IfAddress>>): (r: seq<IfAddress>)
    ensures forall a :: a in r <==> exists k | k in m && k in LinkIndices(links) :: a in m[k]
    ensures UniqueIfIndices(links) && EntriesOnOwnKey(m) ==>
      forall a :: multiset(r)[a] == if a.ifIndex in m && a.ifIndex in LinkIndices(links) then multiset(m[a.ifIndex])[a] else 0
  {
    if links == [] then []
    else
      var rest := ConcatLists(links[1..], m);
      var k0 := links[0].ifIndex;
      var head := if k0 in m then m[k0] else [];
      assert LinkIndices(links) == {k0} + LinkIndices(links[1..]) by {
        assert links == [links[0]] + links[1..];
      }
      assert UniqueIfIndices(links) ==> UniqueIfIndices(links[1..]) && k0 !in LinkIndices(links[1..]) by {
        if UniqueIfIndices(links) { UniqueTail(links); }
      }
      assert EntriesOnOwnKey(m) ==> forall a: IfAddress | a.ifIndex != k0 :: multiset(head)[a] == 0 by {
        if EntriesOnOwnKey(m) { OwnKeyOnly(m, k0); }
      }
      assert multiset(head + rest) == multiset(head) + multiset(rest);
      head + rest
  }

  /** Every entry of a list is on the interface the list is stored under. */
  predicate EntriesOnOwnKey(m: map<int, seq<IfAddress>>) {
    forall k | k in m :: forall a | a in m[k] :: a.ifIndex == k
  }

  /**
   * getAllIfAddresses: the concatenation of all per-interface lists; on a
   * valid store, an address is returned iff some interface holds it.
   */
  function GetAllIfAddresses(s: Store): (r: seq<IfAddress>)
    ensures Valid(s) ==> forall a :: a in r <==> exists k | k in s.ifAddrs :: a in s.ifAddrs[k]
    ensures Valid(s) ==> forall a :: multiset(r)[a] == if a.ifIndex in s.ifAddrs then multiset(s.ifAddrs[a.ifIndex])[a] else 0
  {
    ConcatLists(s.links, s.ifAddrs)
  }

  /** getAllLinks: every stored link; on a valid store, one per address-list key. */
  function GetAllLinks(s: Store): (r: seq<Link>)
    ensures Valid(s) ==> UniqueIfIndices(r) && LinkIndices(r) == s.ifAddrs.Keys
    ensures forall l :: l in r <==> l in s.links
  {
    s.links
  }

  /**
   * addLink: -EEXIST with the store unchanged when the ifIndex is known;
   * otherwise the link is stored together with an empty address list.
   */
  function AddLink(s: Store, link: Link): (r: Reply)
    ensures r.code == 0 || r.code == -EEXIST
    ensures r.code == -EEXIST <==> link.ifIndex in LinkIndices(s.links)
    ensures r.code == -EEXIST ==> r.store == s
    ensures r.code == 0 ==> r.store.links == s.links + [link]
    ensures r.code == 0 && Valid(s) ==> r.store.ifAddrs == s.ifAddrs[link.ifIndex := []]
    ensures r.store.mplsRoutes == s.mplsRoutes && r.store.unicastRoutes == s.unicastRoutes
    ensures Valid(s) ==> Valid(r.store)
  {
    if link.ifIndex in LinkIndices(s.links) then Reply(s, -EEXIST)
    else
      var s' := s.(links := s.links + [link],
                   ifAddrs := if link.ifIndex in s.ifAddrs then s.ifAddrs else s.ifAddrs[link.ifIndex := []]);
      assert LinkIndices(s'.links) == LinkIndices(s.links) + {link.ifIndex};
      Reply(s', 0)
  }

  /**
   * utils::createIfAddress (with the address already parsed): an address on
   * `ifIndex` whose scope is host for loopback, link for link-local and
   * universe otherwise.
   */
  function CreateIfAddress(ifIndex: int, network: Prefix): (a: IfAddress)
    ensures a.ifIndex == ifIndex && a.prefix == Some(network)
    ensures a.scope == RT_SCOPE_HOST <==> IsLoopback(network.addr)
    ensures a.scope == RT_SCOPE_LINK <==> !IsLoopback(network.addr) && IsLinkLocal(network.addr)
    ensures a.scope == RT_SCOPE_UNIVERSE <==> !IsLoopback(network.addr) && !IsLinkLocal(network.addr)
  {
    IfAddress(ifIndex, Some(network), InferScope(network.addr))
  }

  // ---------------------------------------------------------------------------
  // Properties relating several operations

  /** Deleting the address that was just added restores the store. */
  lemma {:induction false} AddThenDeleteAddress(s: Store, a: IfAddress)
    requires Valid(s)
    requires AddIfAddress(s, a).code == 0
    ensures DeleteIfAddress(AddIfAddress(s, a).store, a) == Reply(s, 0)
  {
    var l := s.ifAddrs[a.ifIndex];
    RemoveFirstAppended(l, a);
    assert s.ifAddrs[a.ifIndex := l] == s.ifAddrs;
  }

  lemma {:induction false} RemoveFirstAppended(l: seq<IfAddress>, a: IfAddress)
    requires !HasPrefix(l, a.prefix)
    ensures RemoveFirst(l + [a], a.prefix) == l
  {
    if l == [] {
    } else {
      assert (l + [a])[1..] == l[1..] + [a];
      assert forall i | 0 <= i < |l[1..]| :: l[1..][i] == l[i + 1];
      RemoveFirstAppended(l[1..], a);
    }
  }

  /** Deleting a route whose key was absent right after adding it restores the store. */
  lemma {:induction false} AddThenDeleteRoute(s: Store, route: Route)
    requires Valid(s) && HasKey(route)
    requires forall x | x in TableOf(s, route) :: KeyOf(x) != KeyOf(route)
    ensures DeleteRoute(AddRoute(s, route).store, route) == Reply(s, 0)
  {
    var t := TableOf(s, route);
    EraseUpsertFresh(t, route);
  }

  lemma {:induction false} EraseUpsertFresh(t: seq<Route>, r: Route)
    requires IsTable(t) && HasKey(r)
    requires forall x | x in t :: KeyOf(x) != KeyOf(r)
    ensures Erase(Upsert(t, r), KeyOf(r)) == t
  {
    if t == [] {
    } else {
      assert t[0] in t;
      forall x | x in t[1..] ensures KeyOf(x) != KeyOf(r) {
        assert x in t;
      }
      EraseUpsertFresh(t[1..], r);
    }
  }

  /** Adding the same route twice leaves the store as one addition does. */
  lemma {:induction false} AddRouteIdempotent(s: Store, route: Route)
    requires Valid(s) && HasKey(route)
    ensures AddRoute(AddRoute(s, route).store, route) == AddRoute(s, route)
  {
    UpsertIdempotent(TableOf(s, route), route);
  }

  lemma {:induction false} UpsertIdempotent(t: seq<Route>, r: Route)
    requires IsTable(t) && HasKey(r)
    ensures Upsert(Upsert(t, r), r) == Upsert(t, r)
  {
    if t != [] && KeyOf(t[0]) != KeyOf(r) {
      UpsertIdempotent(t[1..], r);
    }
  }

  /** In a valid store there is at most one route per key in each table. */
  lemma OneRoutePerKey(s: Store, x: Route, y: Route)
    requires Valid(s)
    requires (x in s.mplsRoutes && y in s.mplsRoutes) || (x in s.unicastRoutes && y in s.unicastRoutes)
    ensures KeyOf(x) == KeyOf(y) ==> x == y
  {
    var t := if x in s.mplsRoutes && y in s.mplsRoutes then s.mplsRoutes else s.unicastRoutes;
    var i :| 0 <= i < |t| && t[i] == x;
    var j :| 0 <= j < |t| && t[j] == y;
    assert i != j ==> KeyOf(t[i]) != KeyOf(t[j]);
  }
}

=== FILE: netlink_message.dfy ===
/**
 * The netlink message frame: a fixed-capacity payload buffer that attributes
 * are appended to, a request-type tag, the object-receive callbacks a request
 * kind may accept, and the one-shot completion status relayed to the
 * request's future.
 *
 * Byte contents are not modelled; only lengths are. Lengths follow the
 * rtnetlink layout of section 2.3.2 of RFC 3549: an attribute is a 4-byte
 * (length, type) header followed by its data, and every attribute starts on
 * a 4-byte boundary.
 */
module NetlinkMessage {
  import opened Wrappers
  import opened NetlinkTypes

  /** Capacity of the message buffer in bytes. */
  const kMaxNlPayloadSize: nat := 4096

  /** Attributes and messages are padded to multiples of this many bytes. */
  const RTA_ALIGNTO: nat := 4

  /** Size of the attribute header (`struct rtattr`: 16-bit length, 16-bit type). */
  const RTA_HDRLEN: nat := 4

  /** Largest value the 16-bit attribute length field can hold. */
  const MAX_RTA_LEN: nat := 0xFFFF

  /** Round up to the next multiple of RTA_ALIGNTO. */
  function Align(n: nat): (a: nat)
    ensures a % RTA_ALIGNTO == 0
    ensures n <= a < n + RTA_ALIGNTO
  {
    (n + RTA_ALIGNTO - 1) / RTA_ALIGNTO * RTA_ALIGNTO
  }

  /** The attribute length field for `len` bytes of data: header plus data, unpadded. */
  function RtaLength(len: nat): nat {
    RTA_HDRLEN + len
  }

  /** The room an attribute of `len` data bytes takes in the buffer. */
  function RtaSpace(len: nat): nat {
    Align(RtaLength(len))
  }

  // ---------------------------------------------------------------------------
  // Message state

  /** The request a message carries; the socket dispatches replies on it. */
  datatype MessageType =
    | GetAllLinks
    | GetAllAddrs
    | GetAddr
    | AddAddr
    | DelAddr
    | GetAllNeighbors
    | GetAllRoutes
    | GetRoute
    | AddRoute
    | DelRoute

  /** The four kinds of object the kernel can send back. */
  datatype ObjectKind = RouteKind | LinkKind | NeighborKind | IfAddressKind

  datatype Object =
    | RouteObject(route: Route)
    | LinkObject(link: Link)
    | NeighborObject(neighbor: Neighbor)
    | IfAddressObject(ifAddr: IfAddress)
  {
    function Kind(): ObjectKind {
      match this
      case RouteObject(_) => RouteKind
      case LinkObject(_) => LinkKind
      case NeighborObject(_) => NeighborKind
      case IfAddressObject(_) => IfAddressKind
    }
  }

  /** An attribute: its type, its length field, and the sub-attributes nested in it. */
  datatype Attribute = Attribute(attrType: int, rtaLen: nat, subs: seq<Attribute>)

  /** The completion status of the request: set exactly once. */
  datatype Completion = Pending | Resolved(status: int)

  /** The faults a misuse of the message raises. */
  datatype Fault =
    | MustBeImplementedBySubclass(kind: ObjectKind)
    | PromiseAlreadySatisfied
    | FutureAlreadyRetrieved
    | BrokenPromise

  /**
   * A message: its request type, the header's length field, the attributes
   * appended so far, the object kinds its request kind overrides the
   * receive callback for, the objects received, the completion status and
   * whether the future has been handed out.
   */
  datatype Message = Message(
    messageType: MessageType,
    dataLength: nat,
    attributes: seq<Attribute>,
    handles: set<ObjectKind>,
    received: seq<Object>,
    completion: Completion,
    futureTaken: bool)

  /** The frame invariant: the header length is aligned and within capacity. */
  predicate Fits(m: Message) {
    m.dataLength <= kMaxNlPayloadSize && m.dataLength % RTA_ALIGNTO == 0
  }

  /**
   * The object kinds a request receives: links for GET_ALL_LINKS,
   * addresses for the address gets, neighbors for GET_ALL_NEIGHBORS and
   * routes for the route gets. An ADD_ADDR request also takes the address
   * the kernel echoes back in its RTM_NEWADDR reply; the other add and
   * delete requests receive only an ack.
   */
  function Expects(t: MessageType): (ks: set<ObjectKind>)
    ensures |ks| <= 1
    ensures ks == {} <==> t in {DelAddr, AddRoute, DelRoute}
    ensures IfAddressKind in ks <==> t in {GetAllAddrs, GetAddr, AddAddr}
    ensures LinkKind in ks <==> t == GetAllLinks
    ensures RouteKind in ks <==> t in {GetAllRoutes, GetRoute}
    ensures NeighborKind in ks <==> t == GetAllNeighbors
  {
    match t
    case GetAllLinks => {LinkKind}
    case GetAllAddrs => {IfAddressKind}
    case GetAddr => {IfAddressKind}
    case AddAddr => {IfAddressKind}
    case GetAllNeighbors => {NeighborKind}
    case GetAllRoutes => {RouteKind}
    case GetRoute => {RouteKind}
    case _ => {}
  }

  /**
   * A fresh message of type `t` whose request kind overrides the receive
   * callbacks in `handles`: the zero-initialised buffer gives header length
   * zero, no attribute, nothing received and the status pending.
   */
  function Create(t: MessageType, handles: set<ObjectKind>): (m: Message)
    ensures Fits(m) && m.dataLength == 0 && m.attributes == []
    ensures m.messageType == t && m.handles == handles
    ensures m.received == [] && m.completion == Pending && !m.futureTaken
  {
    Message(t, 0, [], handles, [], Pending, false)
  }

  /** The base message overrides no callback. */
  function CreateBase(t: MessageType): (m: Message)
    ensures Fits(m) && m.messageType == t
    ensures forall k :: k !in m.handles
  {
    Create(t, {})
  }

  /** A request of type `t` that overrides exactly the callbacks its replies need. */
  function CreateRequest(t: MessageType): (m: Message)
    ensures Fits(m) && m.messageType == t
    ensures m.handles == Expects(t)
  {
    Create(t, Expects(t))
  }

  // ---------------------------------------------------------------------------
  // Type tag

  function GetMessageType(m: Message): MessageType {
    m.messageType
  }

  /** setMessageType: replaces the tag and nothing else. */
  function SetMessageType(m: Message, t: MessageType): (r: Message)
    ensures GetMessageType(r) == t
    ensures r.(messageType := m.messageType) == m
  {
    m.(messageType := t)
  }

  // ---------------------------------------------------------------------------
  // Attributes

  /** The outcome of addAttributes: the message afterwards and the code returned. */
  datatype AddResult = AddResult(msg: Message, code: int)

  /**
   * addAttributes: append an attribute with `len` bytes of data at the
   * aligned end of the message. Fails with (positive) ENOBUFS, leaving the
   * message as it was, when the aligned end plus the attribute's aligned
   * size would pass the buffer's capacity; otherwise returns 0 and the
   * header length covers the new attribute.
   */
  function AddAttributes(m: Message, attrType: int, len: nat): (r: AddResult)
    ensures r.code == 0 || r.code == ENOBUFS
    ensures r.code == ENOBUFS <==> Align(m.dataLength) + RtaSpace(len) > kMaxNlPayloadSize
    ensures r.code == ENOBUFS ==> r.msg == m
    ensures r.code == 0 ==>
      && r.msg.dataLength == Align(m.dataLength) + RtaSpace(len)
      && r.msg.dataLength >= m.dataLength + RtaLength(len)
      && r.msg.attributes == m.attributes + [Attribute(attrType, RtaLength(len), [])]
      && r.msg.(dataLength := m.dataLength, attributes := m.attributes) == m
    ensures r.code == 0 ==> Fits(r.msg) && r.msg.attributes[|m.attributes|].rtaLen <= MAX_RTA_LEN
  {
    var offset := Align(m.dataLength);
    if offset + RtaSpace(len) > kMaxNlPayloadSize then AddResult(m, ENOBUFS)
    else AddResult(m.(dataLength := offset + RtaSpace(len),
                      attributes := m.attributes + [Attribute(attrType, RtaLength(len), [])]), 0)
  }

  /**
   * addSubAttributes: nest a sub-attribute with `len` bytes of data inside
   * attribute `parent` of the message. Returns None (the null pointer) when
   * the parent's aligned length plus the sub-attribute's aligned size would
   * pass the buffer's capacity. Otherwise only the parent changes: its
   * length grows by the sub-attribute; the header length does not.
   */
  function AddSubAttributes(m: Message, parent: nat, attrType: int, len: nat): (r: Option<Message>)
    requires parent < |m.attributes|
    ensures r.None? <==> Align(m.attributes[parent].rtaLen) + RtaSpace(len) > kMaxNlPayloadSize
    ensures r.Some? ==>
      && |r.value.attributes| == |m.attributes|
      && r.value.attributes[parent].rtaLen == Align(m.attributes[parent].rtaLen) + RtaSpace(len)
      && r.value.attributes[parent].subs == m.attributes[parent].subs + [Attribute(attrType, RtaLength(len), [])]
      && r.value.attributes[parent].attrType == m.attributes[parent].attrType
      && r.value.attributes[parent].rtaLen <= MAX_RTA_LEN
      && (forall i | 0 <= i < |m.attributes| && i != parent :: r.value.attributes[i] == m.attributes[i])
      && r.value.dataLength == m.dataLength
      && r.value.(attributes := m.attributes) == m
  {
    var p := m.attributes[parent];
    var grown := Align(p.rtaLen) + RtaSpace(len);
    if grown > kMaxNlPayloadSize then None
    else
      var p' := p.(rtaLen := grown, subs := p.subs + [Attribute(attrType, RtaLength(len), [])]);
      Some(m.(attributes := m.attributes[parent := p']))
  }

  /**
   * Nesting one sub-attribute per length in turn inside attribute `parent`,
   * stopping at the first one that does not fit (the null pointer).
   */
  function AddSubAll(m: Message, parent: nat, lens: seq<nat>): (r: Message)
    requires parent < |m.attributes|
    ensures |r.attributes| == |m.attributes|
    decreases lens
  {
    if lens == [] then m
    else
      match AddSubAttributes(m, parent, 0, lens[0])
      case None => m
      case Some(m') => AddSubAll(m', parent, lens[1..])
  }

  /**
   * However many sub-attributes are nested, the header length and every
   * other attribute stay as they were, and the parent only grows, never
   * past the buffer's capacity once it was within it.
   */
  lemma {:induction false} NestingKeepsHeader(m: Message, parent: nat, lens: seq<nat>)
    requires parent < |m.attributes|
    ensures var r := AddSubAll(m, parent, lens);
      && r.dataLength == m.dataLength
      && (Fits(m) ==> Fits(r))
      && (forall i | 0 <= i < |m.attributes| && i != parent :: r.attributes[i] == m.attributes[i])
      && r.attributes[parent].attrType == m.attributes[parent].attrType
      && r.attributes[parent].rtaLen >= m.attributes[parent].rtaLen
      && |r.attributes[parent].subs| >= |m.attributes[parent].subs|
      && (m.attributes[parent].rtaLen <= kMaxNlPayloadSize ==> r.attributes[parent].rtaLen <= kMaxNlPayloadSize)
    decreases lens
  {
    if lens != [] {
      match AddSubAttributes(m, parent, 0, lens[0])
      case None =>
      case Some(m') =>
        NestingKeepsHeader(m', parent, lens[1..]);
    }
  }

  /**
   * Appending one attribute per length in turn, the codes returned, and the
   * message afterwards.
   */
  datatype BatchResult = BatchResult(msg: Message, codes: seq<int>)

  function AddAll(m: Message, lens: seq<nat>): (r: BatchResult)
    ensures |r.codes| == |lens|
    decreases lens
  {
    if lens == [] then BatchResult(m, [])
    else
      var first := AddAttributes(m, 0, lens[0]);
      var rest := AddAll(first.msg, lens[1..]);
      BatchResult(rest.msg, [first.code] + rest.codes)
  }

  /** Total buffer space taken by the attributes whose append returned 0. */
  function AcceptedSpace(lens: seq<nat>, codes: seq<int>): nat
    requires |lens| == |codes|
  {
    if lens == [] then 0
    else (if codes[0] == 0 then RtaSpace(lens[0]) else 0) + AcceptedSpace(lens[1..], codes[1..])
  }

  /** Number of appends that returned 0. */
  function Accepted(codes: seq<int>): nat {
    if codes == [] then 0 else (if codes[0] == 0 then 1 else 0) + Accepted(codes[1..])
  }

  /**
   * Whatever is appended to a message within capacity, the message stays
   * within capacity; its header length grows by exactly the space of the
   * accepted attributes, one attribute per accepted append, and every
   * reply is 0 or ENOBUFS.
   */
  lemma {:induction false} AddAllKeepsCapacity(m: Message, lens: seq<nat>)
    requires Fits(m)
    ensures var r := AddAll(m, lens);
      && Fits(r.msg)
      && r.msg.dataLength == m.dataLength + AcceptedSpace(lens, r.codes)
      && |r.msg.attributes| == |m.attributes| + Accepted(r.codes)
      && (forall i | 0 <= i < |r.codes| :: r.codes[i] == 0 || r.codes[i] == ENOBUFS)
    decreases lens
  {
    if lens != [] {
      var first := AddAttributes(m, 0, lens[0]);
      AddAllKeepsCapacity(first.msg, lens[1..]);
      var rest := AddAll(first.msg, lens[1..]);
      var codes := [first.code] + rest.codes;
      assert codes[1..] == rest.codes;
      assert forall i | 1 <= i < |codes| :: codes[i] == rest.codes[i - 1];
    }
  }

  /** Each accepted attribute takes at least four bytes, so at most 1024 appends can succeed on a fresh message. */
  lemma {:induction false} AcceptedBound(lens: seq<nat>, codes: seq<int>)
    requires |lens| == |codes|
    ensures RTA_ALIGNTO * Accepted(codes) <= AcceptedSpace(lens, codes)
    decreases lens
  {
    if lens != [] {
      AcceptedBound(lens[1..], codes[1..]);
    }
  }

  lemma FreshMessageHoldsAtMost1024(t: MessageType, handles: set<ObjectKind>, lens: seq<nat>)
    ensures Accepted(AddAll(Create(t, handles), lens).codes) <= kMaxNlPayloadSize / RTA_ALIGNTO
  {
    var m := Create(t, handles);
    AddAllKeepsCapacity(m, lens);
    AcceptedBound(lens, AddAll(m, lens).codes);
  }

  // ---------------------------------------------------------------------------
  // Received objects

  /**
   * rcvdRoute / rcvdLink / rcvdNeighbor / rcvdIfAddress: a request kind that
   * overrides the callback for the object's kind records the object; for
   * any other kind the default callback is a fatal fault.
   */
  function RcvdObject(m: Message, obj: Object): (r: Result<Message, Fault>)
    ensures r.Failure? <==> obj.Kind() !in m.handles
    ensures r.Failure? ==> r.error == MustBeImplementedBySubclass(obj.Kind())
    ensures r.Success? ==> r.value.received == m.received + [obj] && r.value.(received := m.received) == m
  {
    if obj.Kind() in m.handles then Success(m.(received := m.received + [obj]))
    else Failure(MustBeImplementedBySubclass(obj.Kind()))
  }

  /** The base message faults on every object. */
  lemma BaseMessageRejectsAll(t: MessageType, obj: Object)
    ensures RcvdObject(CreateBase(t), obj) == Failure(MustBeImplementedBySubclass(obj.Kind()))
  {
  }

  /**
   * A request receives an object iff its type expects that kind: GET
   * requests take their own kind only, an address add takes addresses only,
   * and the other add or delete requests take none.
   */
  lemma RequestAcceptsOnlyExpected(t: MessageType, obj: Object)
    ensures RcvdObject(CreateRequest(t), obj).Success? <==> obj.Kind() in Expects(t)
    ensures t == AddAddr ==> (RcvdObject(CreateRequest(t), obj).Success? <==> obj.Kind() == IfAddressKind)
    ensures t in {DelAddr, AddRoute, DelRoute} ==> RcvdObject(CreateRequest(t), obj).Failure?
  {
  }

  // ---------------------------------------------------------------------------
  // Completion

  /** The value the request's future holds: the status once set. */
  function FutureValue(m: Message): Option<int> {
    if m.completion.Resolved? then Some(m.completion.status) else None
  }

  /**
   * getSemiFuture: hands out the future once; a second call faults with
   * FutureAlreadyRetrieved.
   */
  function GetSemiFuture(m: Message): (r: Result<Message, Fault>)
    ensures r.Failure? <==> m.futureTaken
    ensures r.Failure? ==> r.error == FutureAlreadyRetrieved
    ensures r.Success? ==> r.value.futureTaken && r.value.(futureTaken := false) == m
  {
    if m.futureTaken then Failure(FutureAlreadyRetrieved) else Success(m.(futureTaken := true))
  }

  /**
   * setReturnStatus: resolves the request with `status`, which becomes the
   * future's value; a second call faults with PromiseAlreadySatisfied.
   */
  function SetReturnStatus(m: Message, status: int): (r: Result<Message, Fault>)
    ensures r.Failure? <==> FutureValue(m).Some?
    ensures r.Failure? ==> r.error == PromiseAlreadySatisfied
    ensures r.Success? ==> FutureValue(r.value) == Some(status) && r.value.(completion := Pending) == m
  {
    if m.completion.Resolved? then Failure(PromiseAlreadySatisfied)
    else Success(m.(completion := Resolved(status)))
  }

  /**
   * Destroying the message: allowed once the status is set; a message torn
   * down while pending breaks its promise.
   */
  function Destroy(m: Message): (r: Result<int, Fault>)
    ensures r.Failure? <==> FutureValue(m).None?
    ensures r.Failure? ==> r.error == BrokenPromise
    ensures r.Success? ==> FutureValue(m) == Some(r.value)
  {
    match m.completion
    case Pending => Failure(BrokenPromise)
    case Resolved(status) => Success(status)
  }

  /** The operations a message goes through while its request is in flight. */
  datatype Event =
    | SetType(t: MessageType)
    | AddAttr(attrType: int, len: nat)
    | Receive(obj: Object)
    | TakeFuture
    | SetStatus(status: int)

  /** Apply one event; a fault stops the run. */
  function Step(m: Message, e: Event): Result<Message, Fault> {
    match e
    case SetType(t) => Success(SetMessageType(m, t))
    case AddAttr(attrType, len) => Success(AddAttributes(m, attrType, len).msg)
    case Receive(obj) => RcvdObject(m, obj)
    case TakeFuture => GetSemiFuture(m)
    case SetStatus(status) => SetReturnStatus(m, status)
  }

  function Run(m: Message, es: seq<Event>): Result<Message, Fault>
    decreases es
  {
    if es == [] then Success(m)
    else
      match Step(m, es[0])
      case Failure(f) => Failure(f)
      case Success(m') => Run(m', es[1..])
  }

  /** The request tag after a run of events: that of the last `SetType`, or `t0` if there is none. */
  function LastSetType(t0: MessageType, es: seq<Event>): MessageType
    decreases es
  {
    if es == [] then t0
    else LastSetType(if es[0].SetType? then es[0].t else t0, es[1..])
  }

  /**
   * Over a run that does not fault, reading the request tag gives the tag
   * last set, or the one the message started with: no other event touches it.
   */
  lemma {:induction false} RunTagIsLastSet(m: Message, es: seq<Event>)
    requires Run(m, es).Success?
    ensures GetMessageType(Run(m, es).value) == LastSetType(GetMessageType(m), es)
    decreases es
  {
    if es != [] {
      var m' := Step(m, es[0]).value;
      assert GetMessageType(m') == if es[0].SetType? then es[0].t else GetMessageType(m);
      RunTagIsLastSet(m', es[1..]);
    }
  }


  /** The first SetStatus of a run, if any. */
  function FirstStatus(es: seq<Event>): Option<int>
    decreases es
  {
    if es == [] then None
    else if es[0].SetStatus? then Some(es[0].status)
    else FirstStatus(es[1..])
  }

  /**
   * Over any run that does not fault, the frame stays within capacity and a
   * status, once set, is never replaced: the future of a pending message
   * holds the first status the run sets, and a resolved message keeps its
   * status (a second SetStatus faults).
   */
  lemma {:induction false} RunKeepsFirstStatus(m: Message, es: seq<Event>)
    requires Fits(m)
    ensures Run(m, es).Success? ==> Fits(Run(m, es).value)
    ensures Run(m, es).Success? && FutureValue(m).Some? ==> FutureValue(Run(m, es).value) == FutureValue(m)
    ensures Run(m, es).Success? && FutureValue(m).None? ==> FutureValue(Run(m, es).value) == FirstStatus(es)
    ensures FutureValue(m).Some? && FirstStatus(es).Some? ==> Run(m, es).Failure?
    decreases es
  {
    if es != [] {
      match Step(m, es[0])
      case Failure(_) =>
      case Success(m') =>
        RunKeepsFirstStatus(m', es[1..]);
    }
  }

  /**
   * A request that is created, runs without faulting and sets its status
   * can be torn down, and its future then holds the first status set.
   */
  lemma CompletedRequestMayBeDestroyed(t: MessageType, es: seq<Event>)
    requires FirstStatus(es).Some?
    ensures var r := Run(CreateRequest(t), es);
      r.Success? ==> Destroy(r.value) == Success(FirstStatus(es).value)
  {
    RunKeepsFirstStatus(CreateRequest(t), es);
  }
}

=== FILE: netlink_types.dfy ===
/**
 * Value types exchanged with the routing-netlink layer: kernel constants,
 * IP addresses and prefixes, links, interface addresses, neighbors and routes.
 */
module NetlinkTypes {
  import opened Wrappers

  // errno values of Linux (asm-generic/errno-base.h and asm-generic/errno.h)
  const ESRCH: int := 3
  const ENXIO: int := 6
  const EEXIST: int := 17
  const EADDRNOTAVAIL: int := 99
  const ENOBUFS: int := 105

  // address families (linux/socket.h)
  const AF_UNSPEC: int := 0
  const AF_INET: int := 2
  const AF_INET6: int := 10
  const AF_MPLS: int := 28

  // address scopes (enum rt_scope_t in linux/rtnetlink.h)
  const RT_SCOPE_UNIVERSE: int := 0
  const RT_SCOPE_LINK: int := 253
  const RT_SCOPE_HOST: int := 254

  newtype byte = x: int | 0 <= x < 256

  type V6Bytes = s: seq<byte> | |s| == 16 witness seq(16, i => 0 as byte)

  /** An IPv4 address as its four octets, or an IPv6 address as its sixteen bytes. */
  datatype IpAddress = V4(a: byte, b: byte, c: byte, d: byte) | V6(bytes: V6Bytes)

  function FamilyOf(ip: IpAddress): int {
    match ip
    case V4(_, _, _, _) => AF_INET
    case V6(_) => AF_INET6
  }

  /** ::ffff:a.b.c.d */
  predicate IsV4Mapped(bytes: V6Bytes) {
    (forall i | 0 <= i < 10 :: bytes[i] == 0) && bytes[10] == 0xff && bytes[11] == 0xff
  }

  /** 127.0.0.0/8, ::1, or an IPv4-mapped address inside 127.0.0.0/8. */
  predicate IsLoopback(ip: IpAddress) {
    match ip
    case V4(a, _, _, _) => a == 127
    case V6(bs) =>
      ((forall i | 0 <= i < 15 :: bs[i] == 0) && bs[15] == 1)
      || (IsV4Mapped(bs) && bs[12] == 127)
  }

  /** 169.254.0.0/16 or fe80::/10. */
  predicate IsLinkLocal(ip: IpAddress) {
    match ip
    case V4(a, b, _, _) => a == 169 && b == 254
    case V6(bs) => bs[0] == 0xfe && 0x80 <= bs[1] <= 0xbf
  }

  /**
   * The scope the system assigns to an address it builds itself: host for
   * loopback, link for link-local, universe for everything else.
   */
  function InferScope(ip: IpAddress): (scope: int)
    ensures scope == RT_SCOPE_HOST <==> IsLoopback(ip)
    ensures scope == RT_SCOPE_LINK <==> !IsLoopback(ip) && IsLinkLocal(ip)
    ensures scope == RT_SCOPE_UNIVERSE <==> !IsLoopback(ip) && !IsLinkLocal(ip)
  {
    if IsLoopback(ip) then RT_SCOPE_HOST
    else if IsLinkLocal(ip) then RT_SCOPE_LINK
    else RT_SCOPE_UNIVERSE
  }

  /** A network: an address with a prefix length; host bits are kept (no mask applied). */
  datatype Prefix = Prefix(addr: IpAddress, len: byte)

  datatype Link = Link(ifIndex: int, ifName: string, isUp: bool)

  datatype IfAddress = IfAddress(ifIndex: int, prefix: Option<Prefix>, scope: int) {
    /** The family of the prefix's address; AF_UNSPEC when no prefix is set. */
    function Family(): int {
      if prefix.Some? then FamilyOf(prefix.value.addr) else AF_UNSPEC
    }
  }

  datatype Neighbor = Neighbor(ifIndex: int, destination: IpAddress, linkAddress: Option<seq<byte>>, state: int)

  datatype NextHop = NextHop(ifIndex: Option<int>, gateway: Option<IpAddress>, weight: int)

  datatype Route = Route(
    protocolId: int,
    family: int,
    destination: Prefix,
    mplsLabel: Option<int>,
    routeType: int,
    nextHops: seq<NextHop>)

  /**
   * The identity of a route in a route table: MPLS routes are identified by
   * (protocol, label), all other routes by (protocol, destination).
   */
  datatype RouteKey = LabelKey(protocolId: int, mplsLabel: int) | DestKey(protocolId: int, destination: Prefix)

  /** An MPLS route must carry its label; other routes are keyed by their destination. */
  predicate HasKey(r: Route) {
    r.family == AF_MPLS ==> r.mplsLabel.Some?
  }

  function KeyOf(r: Route): (k: RouteKey)
    requires HasKey(r)
    ensures k.LabelKey? <==> r.family == AF_MPLS
    ensures k.protocolId == r.protocolId
    ensures k.LabelKey? ==> k.mplsLabel == r.mplsLabel.value
    ensures k.DestKey? ==> k.destination == r.destination
  {
    if r.family == AF_MPLS then LabelKey(r.protocolId, r.mplsLabel.value)
    else DestKey(r.protocolId, r.destination)
  }
}

=== FILE: sync_correctness.dfy ===
/**
 * End-to-end properties of the address façade running against the in-memory
 * store: what a batch of add or delete requests does to an interface's
 * address list, and that a successful sync leaves exactly the desired
 * prefixes of the requested family and scope on the interface.
 */
module SyncCorrectness {
  import opened Wrappers
  import opened NetlinkTypes
  import opened FakeNetlinkSocket
  import opened SystemHandler

  /** The prefixes on list `l` that getIfaceAddresses reports for (family, scope). */
  function PrefixSet(l: seq<IfAddress>, family: int, scope: int): set<Prefix> {
    set a | a in l && a.prefix.Some? && FamilyMatches(family, a) && a.scope == scope :: a.prefix.value
  }

  /** Every address on `l` that carries `p` has scope `scope`. */
  predicate ScopeConsistent(l: seq<IfAddress>, p: Prefix, scope: int) {
    forall a | a in l && a.prefix == Some(p) :: a.scope == scope
  }

  /** No desired prefix is already on interface `k` under a different scope. */
  predicate NoScopeConflict(s: Store, k: int, ps: seq<Prefix>, scope: int) {
    k in s.ifAddrs ==> forall p | p in ps :: ScopeConsistent(s.ifAddrs[k], p, scope)
  }

  /** Every desired prefix belongs to the requested family (zero: any family). */
  predicate FamilyOk(family: int, ps: seq<Prefix>) {
    forall p | p in ps :: family == 0 || FamilyOf(p.addr) == family
  }

  /** A batch whose requests all target interface `k` with a prefix. */
  predicate OnIface(rs: seq<Request>, k: int) {
    forall q | q in rs :: q.addr.ifIndex == k && q.addr.prefix.Some?
  }

  // ---------------------------------------------------------------------------
  // Reading the interface's addresses back

  /** The interface resolved by name is a key of the store's address lists. */
  lemma ResolvedIfaceIsKnown(s: Store, ifName: string)
    requires Valid(s) && GetIfIndex(s.links, ifName).Some?
    ensures GetIfIndex(s.links, ifName).value in s.ifAddrs
  {
    var i :| 0 <= i < |s.links| && s.links[i].ifName == ifName && s.links[i].ifIndex == GetIfIndex(s.links, ifName).value;
    assert s.links[i] in s.links;
  }


  /** Filtering a list that holds no address of interface `k` for `k` gives nothing. */
  lemma {:induction false} FilterOtherIface(l: seq<IfAddress>, k: int, family: int, scope: int)
    requires forall a | a in l :: a.ifIndex != k
    ensures FilterIfAddresses(l, k, family, scope) == Success([])
    decreases l
  {
    if l != [] {
      assert forall a | a in l[1..] :: a in l;
      FilterOtherIface(l[1..], k, family, scope);
    }
  }

  /**
   * Filtering the concatenated lists for interface `k` is filtering `k`'s
   * own list: every other list contributes nothing.
   */
  lemma {:induction false} FilterConcatLists(links: seq<Link>, m: map<int, seq<IfAddress>>, k: int, family: int, scope: int)
    requires UniqueIfIndices(links) && EntriesOnOwnKey(m)
    ensures FilterIfAddresses(ConcatLists(links, m), k, family, scope) ==
      if k in m && k in LinkIndices(links) then FilterIfAddresses(m[k], k, family, scope) else Success([])
    decreases links
  {
    if links != [] {
      var k0 := links[0].ifIndex;
      var head := if k0 in m then m[k0] else [];
      var rest := ConcatLists(links[1..], m);
      assert ConcatLists(links, m) == head + rest;
      assert LinkIndices(links) == {k0} + LinkIndices(links[1..]) by {
        assert links == [links[0]] + links[1..];
      }
      UniqueTail(links);
      FilterConcatLists(links[1..], m, k, family, scope);
      FilterAppend(head, rest, k, family, scope);
      var a := FilterIfAddresses(head, k, family, scope);
      var b := FilterIfAddresses(rest, k, family, scope);
      if k == k0 {
        assert b == Success([]);
        if a.Success? {
          assert a.value + [] == a.value;
        }
      } else {
        FilterOtherIface(head, k, family, scope);
        if b.Success? {
          assert [] + b.value == b.value;
        }
      }
    }
  }

  /** Filtering an interface's own list succeeds and reports exactly its selected prefixes. */
  lemma FilterOwnList(l: seq<IfAddress>, k: int, family: int, scope: int)
    requires WellFormedList(k, l)
    ensures FilterIfAddresses(l, k, family, scope).Success?
    ensures SetOf(FilterIfAddresses(l, k, family, scope).value) == PrefixSet(l, family, scope)
  {
    var r := FilterIfAddresses(l, k, family, scope);
    forall p ensures p in SetOf(r.value) <==> p in PrefixSet(l, family, scope) {
      if p in PrefixSet(l, family, scope) {
        var a :| a in l && a.prefix == Some(p) && FamilyMatches(family, a) && a.scope == scope;
        assert Selected(a, k, family, scope);
      }
    }
  }

  /**
   * On a valid store, getIfaceAddresses succeeds and reports exactly the
   * selected prefixes of the interface's own list.
   */
  lemma IfaceAddressesOfStore(s: Store, ifName: string, family: int, scope: int)
    requires Valid(s) && GetIfIndex(s.links, ifName).Some?
    ensures GetIfIndex(s.links, ifName).value in s.ifAddrs
    ensures GetIfaceAddresses(s, ifName, family, scope).Success?
    ensures SetOf(GetIfaceAddresses(s, ifName, family, scope).value)
         == PrefixSet(s.ifAddrs[GetIfIndex(s.links, ifName).value], family, scope)
    ensures GetIfaceAddresses(s, ifName, family, scope)
         == FilterIfAddresses(s.ifAddrs[GetIfIndex(s.links, ifName).value], GetIfIndex(s.links, ifName).value, family, scope)
  {
    var k := GetIfIndex(s.links, ifName).value;
    ResolvedIfaceIsKnown(s, ifName);
    assert EntriesOnOwnKey(s.ifAddrs);
    FilterConcatLists(s.links, s.ifAddrs, k, family, scope);
    assert GetIfaceAddresses(s, ifName, family, scope) == FilterIfAddresses(s.ifAddrs[k], k, family, scope);
    FilterOwnList(s.ifAddrs[k], k, family, scope);
  }


  // ---------------------------------------------------------------------------
  // One request against one list

  /** Appending an address of the selected family and scope adds its prefix. */
  lemma PrefixSetAppend(l: seq<IfAddress>, a: IfAddress, family: int, scope: int)
    requires a.prefix.Some? && a.scope == scope && FamilyMatches(family, a)
    ensures PrefixSet(l + [a], family, scope) == PrefixSet(l, family, scope) + {a.prefix.value}
  {
    assert forall x :: x in l + [a] <==> x in l || x == a;
  }

  /** A prefix already on the list, of the selected family and only ever at the selected scope, is reported. */
  lemma PrefixSetPresent(l: seq<IfAddress>, p: Prefix, family: int, scope: int)
    requires HasPrefix(l, Some(p)) && ScopeConsistent(l, p, scope)
    requires family == 0 || FamilyOf(p.addr) == family
    ensures p in PrefixSet(l, family, scope)
  {
    var i :| 0 <= i < |l| && l[i].prefix == Some(p);
    assert l[i] in l;
  }

  /** Removing the entry for `p` from a well-formed list removes exactly `p` from the reported set. */
  lemma PrefixSetRemove(k: int, l: seq<IfAddress>, p: Prefix, family: int, scope: int)
    requires WellFormedList(k, l)
    ensures PrefixSet(RemoveFirst(l, Some(p)), family, scope) == PrefixSet(l, family, scope) - {p}
  {
    var l' := RemoveFirst(l, Some(p));
    RemoveFirstDistinct(k, l, Some(p));
    forall x ensures x in PrefixSet(l', family, scope) <==> x in PrefixSet(l, family, scope) && x != p {
      if x in PrefixSet(l', family, scope) {
        var a :| a in l' && a.prefix == Some(x) && FamilyMatches(family, a) && a.scope == scope;
        var i :| 0 <= i < |l'| && l'[i] == a;
        assert x != p;
      }
    }
  }

  /** Removing an entry never brings a prefix onto the list. */
  lemma RemoveKeepsAbsent(k: int, l: seq<IfAddress>, p: Option<Prefix>, x: Option<Prefix>)
    requires WellFormedList(k, l) && !HasPrefix(l, x)
    ensures !HasPrefix(RemoveFirst(l, p), x)
  {
    var l' := RemoveFirst(l, p);
    RemoveFirstDistinct(k, l, p);
    forall i | 0 <= i < |l'| ensures l'[i].prefix != x {
      assert l'[i] in l';
      var j :| 0 <= j < |l| && l[j] == l'[i];
    }
  }

  /** The interface `k` exists and its list is well formed; the part of validity the batch lemmas need. */
  predicate IfaceOk(s: Store, k: int) {
    k in s.ifAddrs && WellFormedList(k, s.ifAddrs[k])
  }

  /**
   * An add for an interface that exists: the reply is acceptable and the
   * list either already carried the prefix and is unchanged, or gains the
   * address at its end; either way the prefix is on it afterwards.
   */
  lemma AddInstalls(s: Store, q: Request)
    requires IfaceOk(s, q.addr.ifIndex) && q.isAdd && q.addr.prefix.Some?
    ensures var r := Send(s, q); var k := q.addr.ifIndex;
      && Acceptable(r.code)
      && IfaceOk(r.store, k)
      && (if HasPrefix(s.ifAddrs[k], q.addr.prefix) then r.store.ifAddrs[k] == s.ifAddrs[k]
          else r.store.ifAddrs[k] == s.ifAddrs[k] + [q.addr])
      && HasPrefix(r.store.ifAddrs[k], q.addr.prefix)
  {
    var l := s.ifAddrs[q.addr.ifIndex];
    if !HasPrefix(l, q.addr.prefix) {
      var l' := l + [q.addr];
      assert l'[|l|] == q.addr;
      assert forall a | a in l' :: a in l || a == q.addr;
      forall i, j | 0 <= i < j < |l'| ensures l'[i].prefix != l'[j].prefix {
        if j == |l| { assert l'[i] == l[i]; } else { assert l'[i] == l[i] && l'[j] == l[j]; }
      }
    }
  }

  /**
   * An add with the caller's scope grows the reported set by its prefix,
   * provided the prefix is of the selected family and not already on the
   * interface under another scope.
   */
  lemma AddStep(s: Store, q: Request, family: int, scope: int)
    requires IfaceOk(s, q.addr.ifIndex) && q.isAdd && q.addr.prefix.Some? && q.addr.scope == scope
    requires family == 0 || FamilyOf(q.addr.prefix.value.addr) == family
    requires ScopeConsistent(s.ifAddrs[q.addr.ifIndex], q.addr.prefix.value, scope)
    ensures var r := Send(s, q); var k := q.addr.ifIndex;
      && PrefixSet(r.store.ifAddrs[k], family, scope) == PrefixSet(s.ifAddrs[k], family, scope) + {q.addr.prefix.value}
      && forall p | ScopeConsistent(s.ifAddrs[k], p, scope) :: ScopeConsistent(r.store.ifAddrs[k], p, scope)
  {
    var k := q.addr.ifIndex;
    var l := s.ifAddrs[k];
    AddInstalls(s, q);
    if HasPrefix(l, q.addr.prefix) {
      PrefixSetPresent(l, q.addr.prefix.value, family, scope);
    } else {
      PrefixSetAppend(l, q.addr, family, scope);
      assert forall a | a in l + [q.addr] :: a in l || a == q.addr;
    }
  }

  /**
   * A delete for interface `k`: the reply is acceptable, the list loses the
   * entry for the prefix if it had one, and the reported set loses the prefix.
   */
  lemma DeleteStep(s: Store, q: Request, family: int, scope: int)
    requires IfaceOk(s, q.addr.ifIndex) && !q.isAdd && q.addr.prefix.Some?
    ensures var r := Send(s, q); var k := q.addr.ifIndex;
      && Acceptable(r.code)
      && IfaceOk(r.store, k)
      && r.store.ifAddrs[k] == RemoveFirst(s.ifAddrs[k], q.addr.prefix)
      && !HasPrefix(r.store.ifAddrs[k], q.addr.prefix)
      && PrefixSet(r.store.ifAddrs[k], family, scope) == PrefixSet(s.ifAddrs[k], family, scope) - {q.addr.prefix.value}
  {
    var k := q.addr.ifIndex;
    var l := s.ifAddrs[k];
    RemoveFirstDistinct(k, l, q.addr.prefix);
    PrefixSetRemove(k, l, q.addr.prefix.value, family, scope);
  }

  // ---------------------------------------------------------------------------
  // Batches of requests against one interface

  predicate AllAcceptable(codes: seq<int>) {
    forall i | 0 <= i < |codes| :: Acceptable(codes[i])
  }

  /** A non-empty batch sends its first request, then the rest against the resulting store. */
  lemma ApplyCons(s: Store, rs: seq<Request>)
    requires rs != []
    ensures var first := Send(s, rs[0]);
      var rest := ApplyRequests(first.store, rs[1..]);
      && ApplyRequests(s, rs).store == rest.store
      && (Acceptable(first.code) && AllAcceptable(rest.codes) ==> AllAcceptable(ApplyRequests(s, rs).codes))
      && AddedPrefixes(rs) == (if rs[0].isAdd && rs[0].addr.prefix.Some? then {rs[0].addr.prefix.value} else {}) + AddedPrefixes(rs[1..])
      && DeletedPrefixes(rs) == (if !rs[0].isAdd && rs[0].addr.prefix.Some? then {rs[0].addr.prefix.value} else {}) + DeletedPrefixes(rs[1..])
  {
    var first := Send(s, rs[0]);
    var rest := ApplyRequests(first.store, rs[1..]);
    assert ApplyRequests(s, rs) == Applied(rest.store, [first.code] + rest.codes);
    AcceptableCons(first.code, rest.codes);
    PrefixesCons(rs);
  }

  lemma AcceptableCons(c: int, codes: seq<int>)
    ensures Acceptable(c) && AllAcceptable(codes) ==> AllAcceptable([c] + codes)
  {
    if Acceptable(c) && AllAcceptable(codes) {
      forall i | 0 <= i < |[c] + codes| ensures Acceptable(([c] + codes)[i]) {
        if i > 0 { assert ([c] + codes)[i] == codes[i - 1]; }
      }
    }
  }

  lemma PrefixesCons(rs: seq<Request>)
    requires rs != []
    ensures AddedPrefixes(rs) == (if rs[0].isAdd && rs[0].addr.prefix.Some? then {rs[0].addr.prefix.value} else {}) + AddedPrefixes(rs[1..])
    ensures DeletedPrefixes(rs) == (if !rs[0].isAdd && rs[0].addr.prefix.Some? then {rs[0].addr.prefix.value} else {}) + DeletedPrefixes(rs[1..])
  {
    assert rs == [rs[0]] + rs[1..];
    PrefixesOfConcat([rs[0]], rs[1..]);
  }

  /**
   * Adds with the caller's scope grow the reported prefix set by exactly the
   * added prefixes, provided none of them already sits on the interface
   * under another scope; every reply is acceptable.
   */
  lemma {:induction false} ApplyScopedAdds(s: Store, k: int, rs: seq<Request>, family: int, scope: int)
    requires IfaceOk(s, k) && OnIface(rs, k)
    requires forall q | q in rs :: q.isAdd && q.addr.scope == scope
    requires forall q | q in rs :: family == 0 || FamilyOf(q.addr.prefix.value.addr) == family
    requires forall q | q in rs :: ScopeConsistent(s.ifAddrs[k], q.addr.prefix.value, scope)
    ensures var r := ApplyRequests(s, rs);
      && IfaceOk(r.store, k)
      && AllAcceptable(r.codes)
      && PrefixSet(r.store.ifAddrs[k], family, scope) == PrefixSet(s.ifAddrs[k], family, scope) + AddedPrefixes(rs)
    decreases rs
  {
    if rs != [] {
      var q := rs[0];
      assert q in rs;
      var first := Send(s, q);
      var tail := rs[1..];
      assert forall x | x in tail :: x in rs;
      assert && Acceptable(first.code) && IfaceOk(first.store, k)
             && PrefixSet(first.store.ifAddrs[k], family, scope) == PrefixSet(s.ifAddrs[k], family, scope) + {q.addr.prefix.value}
             && forall x | x in tail :: ScopeConsistent(first.store.ifAddrs[k], x.addr.prefix.value, scope)
      by {
        AddInstalls(s, q);
        AddStep(s, q, family, scope);
      }
      ApplyScopedAdds(first.store, k, tail, family, scope);
      ApplyCons(s, rs);
    }
  }

  /**
   * Deletes shrink the reported prefix set by exactly the deleted prefixes;
   * every reply is acceptable.
   */
  lemma {:induction false} ApplyDeletes(s: Store, k: int, rs: seq<Request>, family: int, scope: int)
    requires IfaceOk(s, k) && OnIface(rs, k)
    requires forall q | q in rs :: !q.isAdd
    ensures var r := ApplyRequests(s, rs);
      && IfaceOk(r.store, k)
      && AllAcceptable(r.codes)
      && PrefixSet(r.store.ifAddrs[k], family, scope) == PrefixSet(s.ifAddrs[k], family, scope) - DeletedPrefixes(rs)
    decreases rs
  {
    if rs != [] {
      var q := rs[0];
      assert q in rs;
      var first := Send(s, q);
      assert Acceptable(first.code)
          && PrefixSet(first.store.ifAddrs[k], family, scope) == PrefixSet(s.ifAddrs[k], family, scope) - {q.addr.prefix.value} by {
        DeleteStep(s, q, family, scope);
      }
      var tail := rs[1..];
      assert OnIface(tail, k) && forall x | x in tail :: !x.isAdd by {
        assert forall x | x in tail :: x in rs;
      }
      ApplyDeletes(first.store, k, tail, family, scope);
      ApplyCons(s, rs);
    }
  }

  /** Every prefix carried by an address on `l`, whatever its family or scope. */
  function Prefixes(l: seq<IfAddress>): set<Prefix> {
    set a | a in l && a.prefix.Some? :: a.prefix.value
  }

  lemma PrefixesHas(l: seq<IfAddress>, p: Prefix)
    ensures p in Prefixes(l) <==> HasPrefix(l, Some(p))
  {
    if HasPrefix(l, Some(p)) {
      var i :| 0 <= i < |l| && l[i].prefix == Some(p);
      assert l[i] in l;
    }
  }

  /** Adds keep the interface well formed, keep every address it had, and get acceptable replies. */
  lemma {:induction false} AddsKeep(s: Store, k: int, rs: seq<Request>)
    requires IfaceOk(s, k) && OnIface(rs, k)
    requires forall q | q in rs :: q.isAdd
    ensures var r := ApplyRequests(s, rs);
      && IfaceOk(r.store, k)
      && AllAcceptable(r.codes)
      && (forall a | a in s.ifAddrs[k] :: a in r.store.ifAddrs[k])
    decreases rs
  {
    if rs != [] {
      var q := rs[0];
      assert q in rs;
      var first := Send(s, q);
      var tail := rs[1..];
      assert && Acceptable(first.code) && IfaceOk(first.store, k)
             && (forall a | a in s.ifAddrs[k] :: a in first.store.ifAddrs[k]) by {
        AddInstalls(s, q);
      }
      assert OnIface(tail, k) && forall x | x in tail :: x.isAdd by {
        assert forall x | x in tail :: x in rs;
      }
      AddsKeep(first.store, k, tail);
      ApplyCons(s, rs);
    }
  }

  /** Adds bring onto the interface only the addresses they request. */
  lemma {:induction false} AddsOnlyRequested(s: Store, k: int, rs: seq<Request>)
    requires IfaceOk(s, k) && OnIface(rs, k)
    requires forall q | q in rs :: q.isAdd
    ensures var r := ApplyRequests(s, rs);
      forall a | a in r.store.ifAddrs[k] :: a in s.ifAddrs[k] || Request(true, a) in rs
    decreases rs
  {
    if rs != [] {
      var q := rs[0];
      assert q in rs;
      var first := Send(s, q);
      var tail := rs[1..];
      assert IfaceOk(first.store, k) && (forall a | a in first.store.ifAddrs[k] :: a in s.ifAddrs[k] || a == q.addr) by {
        AddInstalls(s, q);
      }
      assert OnIface(tail, k) && forall x | x in tail :: x.isAdd by {
        assert forall x | x in tail :: x in rs;
      }
      AddsOnlyRequested(first.store, k, tail);
      ApplyCons(s, rs);
      assert forall x | x in tail :: x in rs;
      assert q == Request(true, q.addr);
    }
  }

  /** After adds, every requested prefix is on the interface. */
  lemma {:induction false} AddsInstallRequested(s: Store, k: int, rs: seq<Request>)
    requires IfaceOk(s, k) && OnIface(rs, k)
    requires forall q | q in rs :: q.isAdd
    ensures var r := ApplyRequests(s, rs);
      forall q | q in rs :: HasPrefix(r.store.ifAddrs[k], q.addr.prefix)
    decreases rs
  {
    if rs != [] {
      var q := rs[0];
      assert q in rs;
      var first := Send(s, q);
      var tail := rs[1..];
      assert IfaceOk(first.store, k) && HasPrefix(first.store.ifAddrs[k], q.addr.prefix) by {
        AddInstalls(s, q);
      }
      assert OnIface(tail, k) && forall x | x in tail :: x.isAdd by {
        assert forall x | x in tail :: x in rs;
      }
      AddsInstallRequested(first.store, k, tail);
      AddsKeep(first.store, k, tail);
      ApplyCons(s, rs);
      var r := ApplyRequests(s, rs);
      KeepsPrefixes(first.store.ifAddrs[k], r.store.ifAddrs[k]);
      assert forall x | x in rs :: x == q || x in tail;
    }
  }

  /**
   * After a batch of adds, the interface keeps every address it had and
   * gains only requested ones; its prefixes are the old ones plus the
   * requested ones, and every reply is acceptable.
   */
  lemma ApplyAddsInstall(s: Store, k: int, rs: seq<Request>)
    requires IfaceOk(s, k) && OnIface(rs, k)
    requires forall q | q in rs :: q.isAdd
    ensures var r := ApplyRequests(s, rs);
      && IfaceOk(r.store, k)
      && AllAcceptable(r.codes)
      && (forall q | q in rs :: HasPrefix(r.store.ifAddrs[k], q.addr.prefix))
      && (forall p | HasPrefix(s.ifAddrs[k], p) :: HasPrefix(r.store.ifAddrs[k], p))
      && (forall a | a in s.ifAddrs[k] :: a in r.store.ifAddrs[k])
      && (forall a | a in r.store.ifAddrs[k] :: a in s.ifAddrs[k] || Request(true, a) in rs)
      && Prefixes(r.store.ifAddrs[k]) == Prefixes(s.ifAddrs[k]) + AddedPrefixes(rs)
  {
    var r := ApplyRequests(s, rs);
    AddsKeep(s, k, rs);
    AddsOnlyRequested(s, k, rs);
    AddsInstallRequested(s, k, rs);
    KeepsPrefixes(s.ifAddrs[k], r.store.ifAddrs[k]);
    AddsPrefixes(s.ifAddrs[k], r.store.ifAddrs[k], rs);
  }

  /** A list that keeps every entry of another keeps every prefix of it. */
  lemma KeepsPrefixes(l: seq<IfAddress>, l': seq<IfAddress>)
    requires forall a | a in l :: a in l'
    ensures forall p | HasPrefix(l, p) :: HasPrefix(l', p)
  {
    forall p | HasPrefix(l, p) ensures HasPrefix(l', p) {
      var i :| 0 <= i < |l| && l[i].prefix == p;
      assert l[i] in l';
      var j :| 0 <= j < |l'| && l'[j] == l[i];
    }
  }

  /** The prefix-level reading of "kept every old address, gained only requested ones, holds every requested prefix". */
  lemma AddsPrefixes(l: seq<IfAddress>, l': seq<IfAddress>, rs: seq<Request>)
    requires forall q | q in rs :: HasPrefix(l', q.addr.prefix)
    requires forall a | a in l :: a in l'
    requires forall a | a in l' :: a in l || Request(true, a) in rs
    ensures Prefixes(l') == Prefixes(l) + AddedPrefixes(rs)
  {
    forall p ensures p in Prefixes(l') <==> p in Prefixes(l) || p in AddedPrefixes(rs) {
      PrefixesHas(l', p);
      if p in AddedPrefixes(rs) {
        var q :| q in rs && q.isAdd && q.addr.prefix == Some(p);
      }
      if p in Prefixes(l') {
        var a :| a in l' && a.prefix == Some(p);
        if a !in l {
          assert Request(true, a) in rs;
        }
      }
    }
  }

  /**
   * After a batch of deletes, the interface holds only addresses it had,
   * keeps every address whose prefix was not requested, and holds none of
   * the requested prefixes; every reply is acceptable.
   */
  lemma {:induction false} ApplyDeletesClear(s: Store, k: int, rs: seq<Request>)
    requires IfaceOk(s, k) && OnIface(rs, k)
    requires forall q | q in rs :: !q.isAdd
    ensures var r := ApplyRequests(s, rs);
      && IfaceOk(r.store, k)
      && AllAcceptable(r.codes)
      && (forall q | q in rs :: !HasPrefix(r.store.ifAddrs[k], q.addr.prefix))
      && (forall p | !HasPrefix(s.ifAddrs[k], p) :: !HasPrefix(r.store.ifAddrs[k], p))
      && (forall a | a in r.store.ifAddrs[k] :: a in s.ifAddrs[k])
      && (forall a | a in s.ifAddrs[k] && a.prefix.Some? && a.prefix.value !in DeletedPrefixes(rs) :: a in r.store.ifAddrs[k])
      && Prefixes(r.store.ifAddrs[k]) == Prefixes(s.ifAddrs[k]) - DeletedPrefixes(rs)
    decreases rs
  {
    var r := ApplyRequests(s, rs);
    if rs != [] {
      var q := rs[0];
      assert q in rs;
      var l := s.ifAddrs[k];
      DeleteStep(s, q, 0, 0);
      RemoveFirstDistinct(k, l, q.addr.prefix);
      var first := Send(s, q);
      forall p | !HasPrefix(l, p) ensures !HasPrefix(first.store.ifAddrs[k], p) {
        RemoveKeepsAbsent(k, l, q.addr.prefix, p);
      }
      var tail := rs[1..];
      assert forall x | x in tail :: x in rs;
      ApplyDeletesClear(first.store, k, tail);
      ApplyCons(s, rs);
      assert forall x | x in rs :: x == q || x in tail;
    }
    DeletesPrefixes(s.ifAddrs[k], r.store.ifAddrs[k], rs);
  }

  /** The prefix-level reading of "holds only old addresses, kept every unrequested one, holds no requested prefix". */
  lemma DeletesPrefixes(l: seq<IfAddress>, l': seq<IfAddress>, rs: seq<Request>)
    requires forall q | q in rs :: !HasPrefix(l', q.addr.prefix)
    requires forall a | a in l' :: a in l
    requires forall a | a in l && a.prefix.Some? && a.prefix.value !in DeletedPrefixes(rs) :: a in l'
    ensures Prefixes(l') == Prefixes(l) - DeletedPrefixes(rs)
  {
    forall p ensures p in Prefixes(l') <==> p in Prefixes(l) && p !in DeletedPrefixes(rs) {
      PrefixesHas(l', p);
      if p in DeletedPrefixes(rs) {
        var q :| q in rs && !q.isAdd && q.addr.prefix == Some(p);
      }
      if p in Prefixes(l) && p !in DeletedPrefixes(rs) {
        var a :| a in l && a.prefix == Some(p);
        assert a in l';
      }
    }
  }

  // ---------------------------------------------------------------------------
  // End-to-end properties

  /** The prefixes an add or remove batch names are exactly the caller's. */
  lemma AddRemovePrefixes(isAdd: bool, k: int, ps: seq<Prefix>)
    ensures isAdd ==> AddedPrefixes(AddRemoveRequests(isAdd, k, ps)) == SetOf(ps)
    ensures !isAdd ==> DeletedPrefixes(AddRemoveRequests(isAdd, k, ps)) == SetOf(ps)
  {
    var rs := AddRemoveRequests(isAdd, k, ps);
    forall p | p in ps ensures exists q | q in rs :: q.addr.prefix == Some(p) && q.isAdd == isAdd {
      var i :| 0 <= i < |ps| && ps[i] == p;
      assert rs[i] in rs;
    }
    forall q | q in rs ensures q.addr.prefix.Some? && q.addr.prefix.value in ps {
      var i :| 0 <= i < |rs| && rs[i] == q;
    }
  }

  /**
   * addIfaceAddresses on a known interface succeeds; the interface's
   * prefixes become its old ones plus the requested ones, and no other
   * interface changes.
   */
  lemma AddIfaceAddressesInstalls(s: Store, ifName: string, ps: seq<Prefix>)
    requires Valid(s) && GetIfIndex(s.links, ifName).Some?
    ensures var r := AddRemoveIfAddresses(s, true, ifName, ps); var k := GetIfIndex(s.links, ifName).value;
      && r.result.Success?
      && k in s.ifAddrs && k in r.store.ifAddrs
      && (forall p | p in ps :: HasPrefix(r.store.ifAddrs[k], Some(p)))
      && Prefixes(r.store.ifAddrs[k]) == Prefixes(s.ifAddrs[k]) + SetOf(ps)
      && (forall j | j in s.ifAddrs && j != k :: r.store.ifAddrs[j] == s.ifAddrs[j])
  {
    var k := GetIfIndex(s.links, ifName).value;
    ResolvedIfaceIsKnown(s, ifName);
    var rs := AddRemoveRequests(true, k, ps);
    ApplyAddsInstall(s, k, rs);
    AddRemovePrefixes(true, k, ps);
    OnlyIfaceTouched(s, k, rs);
    forall p | p in ps ensures exists q | q in rs :: q.addr.prefix == Some(p) {
      var i :| 0 <= i < |ps| && ps[i] == p;
      assert rs[i] in rs;
    }
  }

  /**
   * removeIfaceAddresses on a known interface succeeds; the interface's
   * prefixes become its old ones minus the requested ones, and no other
   * interface changes.
   */
  lemma RemoveIfaceAddressesClears(s: Store, ifName: string, ps: seq<Prefix>)
    requires Valid(s) && GetIfIndex(s.links, ifName).Some?
    ensures var r := AddRemoveIfAddresses(s, false, ifName, ps); var k := GetIfIndex(s.links, ifName).value;
      && r.result.Success?
      && k in s.ifAddrs && k in r.store.ifAddrs
      && (forall p | p in ps :: !HasPrefix(r.store.ifAddrs[k], Some(p)))
      && Prefixes(r.store.ifAddrs[k]) == Prefixes(s.ifAddrs[k]) - SetOf(ps)
      && (forall j | j in s.ifAddrs && j != k :: r.store.ifAddrs[j] == s.ifAddrs[j])
  {
    var k := GetIfIndex(s.links, ifName).value;
    ResolvedIfaceIsKnown(s, ifName);
    var rs := AddRemoveRequests(false, k, ps);
    ApplyDeletesClear(s, k, rs);
    AddRemovePrefixes(false, k, ps);
    OnlyIfaceTouched(s, k, rs);
    forall p | p in ps ensures exists q | q in rs :: q.addr.prefix == Some(p) {
      var i :| 0 <= i < |ps| && ps[i] == p;
      assert rs[i] in rs;
    }
  }

  /** Every request of a batch for interface `k` leaves the other interfaces alone. */
  lemma OnlyIfaceTouched(s: Store, k: int, rs: seq<Request>)
    requires forall q | q in rs :: q.addr.ifIndex == k
    ensures forall j | j in s.ifAddrs && j != k :: ApplyRequests(s, rs).store.ifAddrs[j] == s.ifAddrs[j]
  {
    assert forall i | 0 <= i < |rs| :: rs[i] in rs;
  }

  /**
   * The sync diff, issued against interface `k` whose reported prefixes are
   * `cur`, leaves exactly the desired prefixes reported, with every reply
   * acceptable.
   */
  lemma SyncDiffReachesDesired(s: Store, k: int, family: int, scope: int, cur: seq<Prefix>, newAddrs: seq<Prefix>)
    requires IfaceOk(s, k) && SetOf(cur) == PrefixSet(s.ifAddrs[k], family, scope)
    requires FamilyOk(family, newAddrs)
    requires forall p | p in newAddrs :: ScopeConsistent(s.ifAddrs[k], p, scope)
    ensures var r := ApplyRequests(s, SyncRequests(k, scope, cur, newAddrs));
      && AllAcceptable(r.codes)
      && PrefixSet(r.store.ifAddrs[k], family, scope) == SetOf(newAddrs)
  {
    var toAdd := Missing(newAddrs, cur);
    var toDel := Missing(cur, newAddrs);
    var adds := ScopedRequests(true, k, scope, toAdd);
    var dels := ScopedRequests(false, k, scope, toDel);
    var a := ApplyRequests(s, adds);
    SyncAddPhase(s, k, family, scope, cur, newAddrs);
    var b := ApplyRequests(a.store, dels);
    SyncDeletePhase(a.store, k, family, scope, cur, newAddrs);
    assert ApplyRequests(s, SyncRequests(k, scope, cur, newAddrs)) == Applied(b.store, a.codes + b.codes) by {
      assert SyncRequests(k, scope, cur, newAddrs) == adds + dels;
      ApplyConcat(s, adds, dels);
    }
    AcceptableConcat(a.codes, b.codes);
  }

  lemma AcceptableConcat(xs: seq<int>, ys: seq<int>)
    requires AllAcceptable(xs) && AllAcceptable(ys)
    ensures AllAcceptable(xs + ys)
  {
    forall i | 0 <= i < |xs + ys| ensures Acceptable((xs + ys)[i]) {
      if i >= |xs| { assert (xs + ys)[i] == ys[i - |xs|]; }
    }
  }

  lemma SetOfMissing(xs: seq<Prefix>, ys: seq<Prefix>)
    ensures SetOf(Missing(xs, ys)) == SetOf(xs) - SetOf(ys)
  {
    var m := Missing(xs, ys);
    forall p ensures p in SetOf(m) <==> p in SetOf(xs) && p !in SetOf(ys) {
      assert p in SetOf(m) <==> p in m;
      assert p in SetOf(xs) <==> p in xs;
      assert p in SetOf(ys) <==> p in ys;
    }
  }

  /** The add half of the diff: the reported set becomes current plus desired. */
  lemma SyncAddPhase(s: Store, k: int, family: int, scope: int, cur: seq<Prefix>, newAddrs: seq<Prefix>)
    requires IfaceOk(s, k)
    requires FamilyOk(family, newAddrs)
    requires forall p | p in newAddrs :: ScopeConsistent(s.ifAddrs[k], p, scope)
    ensures var a := ApplyRequests(s, ScopedRequests(true, k, scope, Missing(newAddrs, cur)));
      && IfaceOk(a.store, k) && AllAcceptable(a.codes)
      && PrefixSet(a.store.ifAddrs[k], family, scope) == PrefixSet(s.ifAddrs[k], family, scope) + (SetOf(newAddrs) - SetOf(cur))
  {
    var toAdd := Missing(newAddrs, cur);
    var adds := ScopedRequests(true, k, scope, toAdd);
    forall q | q in adds ensures q.addr.prefix.value in newAddrs {
      assert q.addr.prefix.value in AddedPrefixes(adds);
    }
    ApplyScopedAdds(s, k, adds, family, scope);
    SetOfMissing(newAddrs, cur);
    assert AddedPrefixes(adds) == SetOf(newAddrs) - SetOf(cur);
  }

  /** The delete half of the diff: the reported set loses current minus desired. */
  lemma SyncDeletePhase(s: Store, k: int, family: int, scope: int, cur: seq<Prefix>, newAddrs: seq<Prefix>)
    requires IfaceOk(s, k)
    ensures var b := ApplyRequests(s, ScopedRequests(false, k, scope, Missing(cur, newAddrs)));
      && AllAcceptable(b.codes)
      && PrefixSet(b.store.ifAddrs[k], family, scope) == PrefixSet(s.ifAddrs[k], family, scope) - (SetOf(cur) - SetOf(newAddrs))
  {
    var toDel := Missing(cur, newAddrs);
    var dels := ScopedRequests(false, k, scope, toDel);
    ApplyDeletes(s, k, dels, family, scope);
    SetOfMissing(cur, newAddrs);
    assert DeletedPrefixes(dels) == SetOf(cur) - SetOf(newAddrs);
  }

  /**
   * A sync against the store succeeds and afterwards the interface's
   * addresses of the requested family and scope are exactly the desired
   * ones; other interfaces, the links and the routes are untouched. It needs
   * the desired prefixes to be of the requested family and not already on
   * the interface under another scope (see SyncScopeConflict).
   */
  lemma SyncReachesDesired(s: Store, ifName: string, family: int, scope: int, newAddrs: seq<Prefix>)
    requires Valid(s) && GetIfIndex(s.links, ifName).Some?
    requires FamilyOk(family, newAddrs)
    requires NoScopeConflict(s, GetIfIndex(s.links, ifName).value, newAddrs, scope)
    ensures var r := SyncIfaceAddresses(s, ifName, family, scope, newAddrs);
      && r.result.Success?
      && Valid(r.store)
      && GetIfaceAddresses(r.store, ifName, family, scope).Success?
      && SetOf(GetIfaceAddresses(r.store, ifName, family, scope).value) == SetOf(newAddrs)
      && r.store.links == s.links
      && r.store.mplsRoutes == s.mplsRoutes && r.store.unicastRoutes == s.unicastRoutes
      && (forall j | j in s.ifAddrs && j != GetIfIndex(s.links, ifName).value :: r.store.ifAddrs[j] == s.ifAddrs[j])
  {
    var k := GetIfIndex(s.links, ifName).value;
    IfaceAddressesOfStore(s, ifName, family, scope);
    var cur := GetIfaceAddresses(s, ifName, family, scope).value;
    var rs := SyncRequests(k, scope, cur, newAddrs);
    SyncDiffReachesDesired(s, k, family, scope, cur, newAddrs);
    OnlyIfaceTouched(s, k, rs);
    var b := ApplyRequests(s, rs);
    assert SyncIfaceAddresses(s, ifName, family, scope, newAddrs) == Effect(b.store, FoldReturnCodes(b.codes));
    IfaceAddressesOfStore(b.store, ifName, family, scope);
  }

  /** Nothing is missing from a sequence that holds every element. */
  lemma {:induction false} MissingNothing(xs: seq<Prefix>, ys: seq<Prefix>)
    requires forall p | p in xs :: p in ys
    ensures Missing(xs, ys) == []
    decreases xs
  {
    if xs != [] {
      assert xs[0] in xs;
      assert forall p | p in xs[1..] :: p in xs;
      MissingNothing(xs[1..], ys);
    }
  }

  /** When the current and desired prefixes agree as sets, the diff is empty. */
  lemma SyncDiffEmpty(k: int, scope: int, cur: seq<Prefix>, newAddrs: seq<Prefix>)
    requires SetOf(cur) == SetOf(newAddrs)
    ensures SyncRequests(k, scope, cur, newAddrs) == []
  {
    forall p | p in newAddrs ensures p in cur {
      assert p in SetOf(newAddrs);
    }
    forall p | p in cur ensures p in newAddrs {
      assert p in SetOf(cur);
    }
    MissingNothing(newAddrs, cur);
    MissingNothing(cur, newAddrs);
  }

  /**
   * Whatever the store held before, the sync diff leaves every desired
   * prefix on the interface (at some scope) and reports no prefix that is
   * not desired; every reply is acceptable.
   */
  lemma SyncInstallsDesired(s: Store, k: int, family: int, scope: int, cur: seq<Prefix>, newAddrs: seq<Prefix>)
    requires IfaceOk(s, k) && SetOf(cur) == PrefixSet(s.ifAddrs[k], family, scope)
    ensures var r := ApplyRequests(s, SyncRequests(k, scope, cur, newAddrs));
      && IfaceOk(r.store, k)
      && AllAcceptable(r.codes)
      && (forall p | p in newAddrs :: HasPrefix(r.store.ifAddrs[k], Some(p)))
      && PrefixSet(r.store.ifAddrs[k], family, scope) <= SetOf(newAddrs)
  {
    var l0 := s.ifAddrs[k];
    var adds := ScopedRequests(true, k, scope, Missing(newAddrs, cur));
    var dels := ScopedRequests(false, k, scope, Missing(cur, newAddrs));
    var a := ApplyRequests(s, adds);
    ApplyAddsInstall(s, k, adds);
    var b := ApplyRequests(a.store, dels);
    ApplyDeletesClear(a.store, k, dels);
    ApplyDeletes(a.store, k, dels, family, scope);
    SetOfMissing(newAddrs, cur);
    SetOfMissing(cur, newAddrs);
    assert ApplyRequests(s, SyncRequests(k, scope, cur, newAddrs)) == Applied(b.store, a.codes + b.codes) by {
      assert SyncRequests(k, scope, cur, newAddrs) == adds + dels;
      ApplyConcat(s, adds, dels);
    }
    AcceptableConcat(a.codes, b.codes);
    var la, lb := a.store.ifAddrs[k], b.store.ifAddrs[k];
    forall p | p in newAddrs ensures HasPrefix(lb, Some(p)) {
      assert p in SetOf(newAddrs);
      if p in SetOf(cur) {
        var x :| x in l0 && x.prefix == Some(p) && FamilyMatches(family, x) && x.scope == scope;
        assert p in Prefixes(l0);
      }
      assert p in Prefixes(la);
      assert p in Prefixes(lb);
      PrefixesHas(lb, p);
    }
    forall p | p in PrefixSet(la, family, scope) ensures p in SetOf(cur) || p in AddedPrefixes(adds) {
      var x :| x in la && x.prefix == Some(p) && FamilyMatches(family, x) && x.scope == scope;
      if x !in l0 {
        assert Request(true, x) in adds;
      }
    }
  }

  /** Adds whose prefixes are all on the interface already change nothing and get -EEXIST. */
  lemma {:induction false} ApplyPresentAdds(s: Store, k: int, rs: seq<Request>)
    requires IfaceOk(s, k) && OnIface(rs, k)
    requires forall q | q in rs :: q.isAdd && HasPrefix(s.ifAddrs[k], q.addr.prefix)
    ensures ApplyRequests(s, rs).store == s
    ensures AllAcceptable(ApplyRequests(s, rs).codes)
    decreases rs
  {
    if rs != [] {
      var q := rs[0];
      assert q in rs;
      assert Send(s, q) == Reply(s, -EEXIST);
      assert forall x | x in rs[1..] :: x in rs;
      ApplyPresentAdds(s, k, rs[1..]);
      ApplyCons(s, rs);
    }
  }

  lemma FoldAcceptable(codes: seq<int>)
    requires AllAcceptable(codes)
    ensures FoldReturnCodes(codes) == Success(())
  {
  }

  /**
   * The diff against an interface that already carries every desired prefix,
   * when every current prefix is desired, consists of adds the store answers
   * with -EEXIST: it leaves the store as it is.
   */
  lemma FixedPointDiff(t: Store, k: int, scope: int, cur: seq<Prefix>, newAddrs: seq<Prefix>)
    requires IfaceOk(t, k)
    requires forall p | p in newAddrs :: HasPrefix(t.ifAddrs[k], Some(p))
    requires forall p | p in cur :: p in newAddrs
    ensures var a := ApplyRequests(t, SyncRequests(k, scope, cur, newAddrs));
      a.store == t && AllAcceptable(a.codes)
  {
    MissingNothing(cur, newAddrs);
    var adds := ScopedRequests(true, k, scope, Missing(newAddrs, cur));
    assert SyncRequests(k, scope, cur, newAddrs) == adds by {
      assert ScopedRequests(false, k, scope, []) == [];
      assert adds + [] == adds;
    }
    forall q | q in adds ensures q.isAdd && HasPrefix(t.ifAddrs[k], q.addr.prefix) {
      assert q.addr.prefix.value in AddedPrefixes(adds);
    }
    ApplyPresentAdds(t, k, adds);
  }

  /**
   * A sync against an interface that already carries every desired prefix
   * and reports nothing undesired issues only adds that the store answers
   * with -EEXIST: it succeeds and changes nothing.
   */
  lemma SyncAtFixedPoint(t: Store, ifName: string, family: int, scope: int, newAddrs: seq<Prefix>)
    requires Valid(t) && GetIfIndex(t.links, ifName).Some?
    requires GetIfIndex(t.links, ifName).value in t.ifAddrs
    requires forall p | p in newAddrs :: HasPrefix(t.ifAddrs[GetIfIndex(t.links, ifName).value], Some(p))
    requires PrefixSet(t.ifAddrs[GetIfIndex(t.links, ifName).value], family, scope) <= SetOf(newAddrs)
    ensures SyncIfaceAddresses(t, ifName, family, scope, newAddrs) == Effect(t, Success(()))
  {
    var k := GetIfIndex(t.links, ifName).value;
    IfaceAddressesOfStore(t, ifName, family, scope);
    var cur := GetIfaceAddresses(t, ifName, family, scope).value;
    assert forall p | p in cur :: p in newAddrs by {
      forall p | p in cur ensures p in newAddrs {
        assert p in SetOf(cur);
      }
    }
    FixedPointDiff(t, k, scope, cur, newAddrs);
    var a := ApplyRequests(t, SyncRequests(k, scope, cur, newAddrs));
    FoldAcceptable(a.codes);
  }

  /**
   * A sync reaches a fixed point at once: on any valid store and known
   * interface it succeeds, and repeating it with the same arguments
   * succeeds and leaves the store as it is.
   */
  lemma SyncIsIdempotent(s: Store, ifName: string, family: int, scope: int, newAddrs: seq<Prefix>)
    requires Valid(s) && GetIfIndex(s.links, ifName).Some?
    ensures var r := SyncIfaceAddresses(s, ifName, family, scope, newAddrs);
      && r.result.Success?
      && SyncIfaceAddresses(r.store, ifName, family, scope, newAddrs) == Effect(r.store, Success(()))
  {
    var k := GetIfIndex(s.links, ifName).value;
    IfaceAddressesOfStore(s, ifName, family, scope);
    var cur := GetIfaceAddresses(s, ifName, family, scope).value;
    SyncInstallsDesired(s, k, family, scope, cur, newAddrs);
    var b := ApplyRequests(s, SyncRequests(k, scope, cur, newAddrs));
    assert SyncIfaceAddresses(s, ifName, family, scope, newAddrs) == Effect(b.store, FoldReturnCodes(b.codes));
    FoldAcceptable(b.codes);
    assert GetIfIndex(b.store.links, ifName) == Some(k);
    SyncAtFixedPoint(b.store, ifName, family, scope, newAddrs);
  }

  /**
   * When the desired prefixes are of the requested family and none sits on
   * the interface under another scope, repeating a sync issues no request
   * at all.
   */
  lemma SyncRepeatIssuesNothing(s: Store, ifName: string, family: int, scope: int, newAddrs: seq<Prefix>)
    requires Valid(s) && GetIfIndex(s.links, ifName).Some?
    requires FamilyOk(family, newAddrs)
    requires NoScopeConflict(s, GetIfIndex(s.links, ifName).value, newAddrs, scope)
    ensures var r := SyncIfaceAddresses(s, ifName, family, scope, newAddrs);
      && GetIfaceAddresses(r.store, ifName, family, scope).Success?
      && SyncRequests(GetIfIndex(s.links, ifName).value, scope,
                      GetIfaceAddresses(r.store, ifName, family, scope).value, newAddrs) == []
      && SyncIfaceAddresses(r.store, ifName, family, scope, newAddrs) == Effect(r.store, Success(()))
  {
    SyncReachesDesired(s, ifName, family, scope, newAddrs);
    var r := SyncIfaceAddresses(s, ifName, family, scope, newAddrs);
    var k := GetIfIndex(s.links, ifName).value;
    var current := GetIfaceAddresses(r.store, ifName, family, scope).value;
    SyncDiffEmpty(k, scope, current, newAddrs);
    assert GetIfIndex(r.store.links, ifName) == Some(k);
    assert ApplyRequests(r.store, []) == Applied(r.store, []);
  }

  /**
   * Why the scope precondition is needed: with 10.0.0.1/24 already on eth0
   * at host scope, a sync asking for it at universe scope gets -EEXIST from
   * the store, which counts as success, yet the universe-scope address set
   * stays empty.
   */
  lemma SyncScopeConflict()
    ensures var ip := Prefix(V4(10, 0, 0, 1), 24);
      var s := Store([Link(1, "eth0", true)], map[1 := [IfAddress(1, Some(ip), RT_SCOPE_HOST)]], [], []);
      var r := SyncIfaceAddresses(s, "eth0", 0, RT_SCOPE_UNIVERSE, [ip]);
      && Valid(s)
      && r.result.Success?
      && GetIfaceAddresses(r.store, "eth0", 0, RT_SCOPE_UNIVERSE) == Success([])
  {
    var ip := Prefix(V4(10, 0, 0, 1), 24);
    var a := IfAddress(1, Some(ip), RT_SCOPE_HOST);
    var s := Store([Link(1, "eth0", true)], map[1 := [a]], [], []);
    assert GetIfIndex(s.links, "eth0") == Some(1);
    assert s.links[1..] == [];
    assert GetAllIfAddresses(s) == [a] + ConcatLists([], s.ifAddrs);
    assert !Selected(a, 1, 0, RT_SCOPE_UNIVERSE);
    assert GetIfaceAddresses(s, "eth0", 0, RT_SCOPE_UNIVERSE) == Success([]);
    var q := Request(true, IfAddress(1, Some(ip), RT_SCOPE_UNIVERSE));
    assert [ip][1..] == [];
    assert Missing([ip], []) == [ip] + Missing([], []);
    assert ScopedRequests(true, 1, RT_SCOPE_UNIVERSE, [ip])[0] == q;
    assert SyncRequests(1, RT_SCOPE_UNIVERSE, [], [ip]) == [q];
    assert HasPrefix(s.ifAddrs[1], Some(ip)) by { assert s.ifAddrs[1][0].prefix == Some(ip); }
    assert AddIfAddress(s, q.addr) == Reply(s, -EEXIST);
    assert ApplyRequests(s, [q]) == Applied(s, [-EEXIST]);
  }
}

=== FILE: system_handler.dfy ===
/**
 * The address/link façade over a netlink store: joining links with their
 * addresses, building add/delete requests, filtering an interface's
 * addresses, the sync diff, and folding per-request return codes. Every
 * request goes to the in-memory store and is answered at once, so each
 * operation is a function from store to (store, result).
 */
module SystemHandler {
  import opened Wrappers
  import opened NetlinkTypes
  import opened FakeNetlinkSocket

  /** A link as reported to the RPC caller: name, index, state and its networks. */
  datatype LinkEntry = LinkEntry(ifName: string, ifIndex: int, isUp: bool, networks: seq<Prefix>)

  /** How a handler call fails. */
  datatype HandlerError =
    | NoSuchInterface(ifName: string)  // the interface name resolved to no index
    | UnknownIfIndex(ifIndex: int)     // an address refers to an index with no link
    | MissingPrefix                    // an address without a prefix had to be converted
    | NlError(code: int)               // a request failed with a code that is not idempotent-success

  /** The store after a handler call together with the call's result. */
  datatype Effect<T> = Effect(store: Store, result: Result<T, HandlerError>)

  /** One address request sent to the store. */
  datatype Request = Request(isAdd: bool, addr: IfAddress)

  /** The store's replies to a batch of requests, in the order they were issued. */
  datatype Applied = Applied(store: Store, codes: seq<int>)

  // ---------------------------------------------------------------------------
  // getIfIndex

  /** The index of the first link called `ifName`, if any. */
  function GetIfIndex(links: seq<Link>, ifName: string): (r: Option<int>)
    ensures r.None? <==> forall i | 0 <= i < |links| :: links[i].ifName != ifName
    ensures r.Some? ==>
      exists i | 0 <= i < |links| ::
        && links[i].ifName == ifName
        && links[i].ifIndex == r.value
        && (forall j | 0 <= j < i :: links[j].ifName != ifName)
  {
    if links == [] then None
    else if links[0].ifName == ifName then Some(links[0].ifIndex)
    else
      var r := GetIfIndex(links[1..], ifName);
      assert forall j | 1 <= j < |links| :: links[j] == links[1..][j - 1];
      if r.Some? then
        var i :| 0 <= i < |links[1..]| && links[1..][i].ifName == ifName && links[1..][i].ifIndex == r.value
              && (forall j | 0 <= j < i :: links[1..][j].ifName != ifName);
        assert links[i + 1].ifName == ifName;
        r
      else
        r
  }

  // ---------------------------------------------------------------------------
  // getAllLinks: join links with addresses

  /** The position of the first link with index `k`. */
  function FirstLinkIndex(links: seq<Link>, k: int): (f: nat)
    requires k in LinkIndices(links)
    ensures f < |links| && links[f].ifIndex == k
    ensures forall j | 0 <= j < f :: links[j].ifIndex != k
  {
    if links[0].ifIndex == k then 0
    else
      assert k in LinkIndices(links[1..]) by {
        var l :| l in links && l.ifIndex == k;
        var i :| 0 <= i < |links| && links[i] == l;
        assert links[1..][i - 1] == l;
      }
      var f := FirstLinkIndex(links[1..], k);
      assert links[f + 1] == links[1..][f];
      assert forall j | 1 <= j <= f :: links[j] == links[1..][j - 1];
      f + 1
  }

  /** The networks of interface `k`: the prefixes of its addresses, in address order. */
  function NetworksOf(addrs: seq<IfAddress>, k: int): seq<Prefix> {
    if addrs == [] then []
    else (if addrs[0].ifIndex == k && addrs[0].prefix.Some? then [addrs[0].prefix.value] else []) + NetworksOf(addrs[1..], k)
  }

  /** The error the join raises on reaching address `a`, if any. */
  function AddrError(known: set<int>, a: IfAddress): Option<HandlerError> {
    if a.ifIndex !in known then Some(UnknownIfIndex(a.ifIndex))
    else if a.prefix.None? then Some(MissingPrefix)
    else None
  }

  /** A prefix is among interface `k`'s networks iff some address on `k` carries it. */
  lemma {:induction false} NetworksOfMembers(addrs: seq<IfAddress>, k: int)
    ensures forall p :: p in NetworksOf(addrs, k) <==> exists a | a in addrs :: a.ifIndex == k && a.prefix == Some(p)
  {
    if addrs != [] {
      NetworksOfMembers(addrs[1..], k);
      assert forall a | a in addrs :: a == addrs[0] || a in addrs[1..];
    }
  }

  lemma NetworksOfSnoc(addrs: seq<IfAddress>, a: IfAddress, k: int)
    requires a.prefix.Some?
    ensures NetworksOf(addrs + [a], k) == NetworksOf(addrs, k) + (if a.ifIndex == k then [a.prefix.value] else [])
  {
    if addrs != [] {
      assert (addrs + [a])[1..] == addrs[1..] + [a];
      NetworksOfSnoc(addrs[1..], a, k);
    }
  }

  /** Extending a prefix of the links by one adds that link's index. */
  lemma LinkIndicesStep(links: seq<Link>, i: nat)
    requires i < |links|
    ensures LinkIndices(links[..i + 1]) == LinkIndices(links[..i]) + {links[i].ifIndex}
  {
    assert links[..i + 1] == links[..i] + [links[i]];
  }

  /** A link whose index no earlier link carries is the first with that index. */
  lemma FirstLinkIndexAt(links: seq<Link>, i: nat)
    requires i < |links|
    requires forall j | 0 <= j < i :: links[j].ifIndex != links[i].ifIndex
    ensures links[i].ifIndex in LinkIndices(links)
    ensures FirstLinkIndex(links, links[i].ifIndex) == i
  {
    assert links[i] in links;
  }

  /** The entry the join reports for index `k`: the first such link's name and state. */
  function EntryFor(links: seq<Link>, k: int, networks: seq<Prefix>): LinkEntry
    requires k in LinkIndices(links)
  {
    var l := links[FirstLinkIndex(links, k)];
    LinkEntry(l.ifName, k, l.isUp, networks)
  }

  /** The first loop of the join: one entry per distinct index, the first link winning. */
  method CreateLinkEntries(links: seq<Link>) returns (table: map<int, LinkEntry>, order: seq<int>)
    ensures table.Keys == LinkIndices(links)
    ensures forall k :: k in table <==> k in order
    ensures forall x, y | 0 <= x < y < |order| :: order[x] != order[y]
    ensures forall k | k in table :: table[k] == EntryFor(links, k, [])
  {
    table := map[];
    order := [];
    var i := 0;
    while i < |links|
      invariant 0 <= i <= |links|
      invariant table.Keys == LinkIndices(links[..i])
      invariant forall k :: k in table <==> k in order
      invariant forall x, y | 0 <= x < y < |order| :: order[x] != order[y]
      invariant forall k | k in table :: k in LinkIndices(links) && table[k] == EntryFor(links, k, [])
    {
      var l := links[i];
      LinkIndicesStep(links, i);
      if l.ifIndex !in table {
        assert l.ifIndex in LinkIndices(links) && FirstLinkIndex(links, l.ifIndex) == i by {
          forall j | 0 <= j < i ensures links[j].ifIndex != l.ifIndex {
            assert links[j] in links[..i];
          }
          FirstLinkIndexAt(links, i);
        }
        var order' := order + [l.ifIndex];
        assert forall x, y | 0 <= x < y < |order'| :: order'[x] != order'[y] by {
          assert forall x | 0 <= x < |order| :: order'[x] == order[x];
        }
        var table' := table[l.ifIndex := EntryFor(links, l.ifIndex, [])];
        assert forall k :: k in table' <==> k in order';
        table, order := table', order';
      }
      i := i + 1;
    }
    assert links[..i] == links;
  }

  /** The second loop of the join: append each address's prefix to its link's entry. */
  method AddNetworks(addrs: seq<IfAddress>, table0: map<int, LinkEntry>)
    returns (r: Result<map<int, LinkEntry>, HandlerError>)
    requires forall k | k in table0 :: table0[k].networks == []
    ensures r.Success? <==> forall i | 0 <= i < |addrs| :: AddrError(table0.Keys, addrs[i]).None?
    ensures r.Failure? ==>
      exists j | 0 <= j < |addrs| ::
        && AddrError(table0.Keys, addrs[j]) == Some(r.error)
        && (forall i | 0 <= i < j :: AddrError(table0.Keys, addrs[i]).None?)
    ensures r.Success? ==> r.value.Keys == table0.Keys
    ensures r.Success? ==> forall k | k in r.value :: r.value[k] == table0[k].(networks := NetworksOf(addrs, k))
  {
    var table := table0;
    var j := 0;
    while j < |addrs|
      invariant 0 <= j <= |addrs|
      invariant table.Keys == table0.Keys
      invariant forall x | 0 <= x < j :: AddrError(table0.Keys, addrs[x]).None?
      invariant forall k | k in table :: table[k] == table0[k].(networks := NetworksOf(addrs[..j], k))
    {
      var a := addrs[j];
      if a.ifIndex !in table {
        assert AddrError(table0.Keys, addrs[j]) == Some(UnknownIfIndex(a.ifIndex));
        return Failure(UnknownIfIndex(a.ifIndex));
      }
      if a.prefix.None? {
        assert AddrError(table0.Keys, addrs[j]) == Some(MissingPrefix);
        return Failure(MissingPrefix);
      }
      var next := table[a.ifIndex := table[a.ifIndex].(networks := table[a.ifIndex].networks + [a.prefix.value])];
      forall k | k in next
        ensures next[k] == table0[k].(networks := NetworksOf(addrs[..j + 1], k))
      {
        assert addrs[..j + 1] == addrs[..j] + [a];
        NetworksOfSnoc(addrs[..j], a, k);
      }
      table := next;
      j := j + 1;
    }
    assert addrs[..j] == addrs;
    r := Success(table);
  }

  /**
   * semifuture_getAllLinks: one entry per distinct link index, carrying the
   * first such link's name and state and exactly the prefixes of the
   * addresses on that index. Fails at the first address that names an
   * unknown index or has no prefix.
   */
  method GetAllLinks(links: seq<Link>, addrs: seq<IfAddress>) returns (r: Result<seq<LinkEntry>, HandlerError>)
    ensures r.Success? <==> forall i | 0 <= i < |addrs| :: AddrError(LinkIndices(links), addrs[i]).None?
    ensures r.Failure? ==>
      exists j | 0 <= j < |addrs| ::
        && AddrError(LinkIndices(links), addrs[j]) == Some(r.error)
        && (forall i | 0 <= i < j :: AddrError(LinkIndices(links), addrs[i]).None?)
    ensures r.Success? ==>
      && (forall i, j | 0 <= i < j < |r.value| :: r.value[i].ifIndex != r.value[j].ifIndex)
      && (forall k :: k in LinkIndices(links) <==> exists i | 0 <= i < |r.value| :: r.value[i].ifIndex == k)
      && (forall i | 0 <= i < |r.value| ::
            && r.value[i].ifIndex in LinkIndices(links)
            && r.value[i] == EntryFor(links, r.value[i].ifIndex, NetworksOf(addrs, r.value[i].ifIndex)))
  {
    var table, order := CreateLinkEntries(links);
    assert forall k :: k in table <==> k in order;
    var added := AddNetworks(addrs, table);
    if added.Failure? {
      return Failure(added.error);
    }
    var full := added.value;
    assert full.Keys == table.Keys;
    forall n | 0 <= n < |order| ensures order[n] in full {
      assert order[n] in order;
      assert order[n] in table <==> order[n] in order;
      assert order[n] in table;
    }
    var result := seq(|order|, n requires 0 <= n < |order| => full[order[n]]);
    assert forall n | 0 <= n < |result| :: result[n].ifIndex == order[n];
    forall k | k in LinkIndices(links) ensures exists n | 0 <= n < |result| :: result[n].ifIndex == k {
      var n :| 0 <= n < |order| && order[n] == k;
      assert result[n].ifIndex == k;
    }
    r := Success(result);
  }

  // ---------------------------------------------------------------------------
  // Return-code fold

  function Abs(x: int): nat {
    if x < 0 then -x else x
  }

  /** A reply that the batch treats as success: 0, EEXIST or EADDRNOTAVAIL, of either sign. */
  predicate Acceptable(code: int) {
    Abs(code) == 0 || Abs(code) == EEXIST || Abs(code) == EADDRNOTAVAIL
  }

  /**
   * The batch result: success iff every code is acceptable; otherwise an
   * error carrying the absolute value of the first code that is not.
   */
  function FoldReturnCodes(codes: seq<int>): (r: Result<(), HandlerError>)
    ensures r.Success? <==> forall i | 0 <= i < |codes| :: Acceptable(codes[i])
    ensures r.Failure? ==>
      exists i | 0 <= i < |codes| ::
        && !Acceptable(codes[i])
        && r.error == NlError(Abs(codes[i]))
        && (forall j | 0 <= j < i :: Acceptable(codes[j]))
  {
    if codes == [] then Success(())
    else if !Acceptable(codes[0]) then Failure(NlError(Abs(codes[0])))
    else
      var r := FoldReturnCodes(codes[1..]);
      assert forall j | 1 <= j < |codes| :: codes[j] == codes[1..][j - 1];
      if r.Failure? then
        var i :| 0 <= i < |codes[1..]| && !Acceptable(codes[1..][i]) && r.error == NlError(Abs(codes[1..][i]))
              && (forall j | 0 <= j < i :: Acceptable(codes[1..][j]));
        assert codes[i + 1] == codes[1..][i];
        r
      else
        r
  }

  // ---------------------------------------------------------------------------
  // Sending requests to the store

  function Send(s: Store, q: Request): Reply {
    if q.isAdd then AddIfAddress(s, q.addr) else DeleteIfAddress(s, q.addr)
  }

  /**
   * Issue the requests one after the other, collecting every return code.
   * Nothing is rolled back: the store keeps every change that succeeded.
   */
  function ApplyRequests(s: Store, rs: seq<Request>): (r: Applied)
    ensures |r.codes| == |rs|
    ensures r.store.links == s.links && r.store.ifAddrs.Keys == s.ifAddrs.Keys
    ensures r.store.mplsRoutes == s.mplsRoutes && r.store.unicastRoutes == s.unicastRoutes
    ensures forall k | k in s.ifAddrs && (forall i | 0 <= i < |rs| :: rs[i].addr.ifIndex != k) :: r.store.ifAddrs[k] == s.ifAddrs[k]
    ensures Valid(s) ==> Valid(r.store)
    decreases rs
  {
    if rs == [] then Applied(s, [])
    else
      var first := Send(s, rs[0]);
      var rest := ApplyRequests(first.store, rs[1..]);
      assert forall i | 1 <= i < |rs| :: rs[i] == rs[1..][i - 1];
      Applied(rest.store, [first.code] + rest.codes)
  }

  /** Issuing a batch in two parts issues the first part, then the second. */
  lemma {:induction false} ApplyConcat(s: Store, xs: seq<Request>, ys: seq<Request>)
    ensures ApplyRequests(s, xs + ys) ==
      var a := ApplyRequests(s, xs);
      var b := ApplyRequests(a.store, ys);
      Applied(b.store, a.codes + b.codes)
    decreases xs
  {
    if xs == [] {
      assert xs + ys == ys;
      assert [] + ApplyRequests(s, ys).codes == ApplyRequests(s, ys).codes;
    } else {
      assert (xs + ys)[1..] == xs[1..] + ys;
      assert (xs + ys)[0] == xs[0];
      var first := Send(s, xs[0]);
      ApplyConcat(first.store, xs[1..], ys);
      var a := ApplyRequests(first.store, xs[1..]);
      var b := ApplyRequests(a.store, ys);
      assert [first.code] + (a.codes + b.codes) == ([first.code] + a.codes) + b.codes;
    }
  }

  // ---------------------------------------------------------------------------
  // addRemoveIfAddresses

  /**
   * One request per prefix, in order, all for `ifIndex`, each with the scope
   * its address class implies.
   */
  function AddRemoveRequests(isAdd: bool, ifIndex: int, prefixes: seq<Prefix>): (rs: seq<Request>)
    ensures |rs| == |prefixes|
    ensures forall i | 0 <= i < |rs| ::
      && rs[i].isAdd == isAdd
      && rs[i].addr.ifIndex == ifIndex
      && rs[i].addr.prefix == Some(prefixes[i])
      && (rs[i].addr.scope == RT_SCOPE_HOST <==> IsLoopback(prefixes[i].addr))
      && (rs[i].addr.scope == RT_SCOPE_LINK <==> !IsLoopback(prefixes[i].addr) && IsLinkLocal(prefixes[i].addr))
      && (rs[i].addr.scope == RT_SCOPE_UNIVERSE <==> !IsLoopback(prefixes[i].addr) && !IsLinkLocal(prefixes[i].addr))
  {
    seq(|prefixes|, i requires 0 <= i < |prefixes| =>
      Request(isAdd, IfAddress(ifIndex, Some(prefixes[i]), InferScope(prefixes[i].addr))))
  }

  /**
   * addIfaceAddresses (isAdd) / removeIfaceAddresses (!isAdd): resolve the
   * interface by name, issue one request per prefix, and fold the codes.
   */
  function AddRemoveIfAddresses(s: Store, isAdd: bool, ifName: string, prefixes: seq<Prefix>): (r: Effect<()>)
    ensures GetIfIndex(s.links, ifName).None? ==> r == Effect(s, Failure(NoSuchInterface(ifName)))
    ensures r.store.links == s.links
    ensures Valid(s) ==> Valid(r.store)
  {
    match GetIfIndex(s.links, ifName)
    case None => Effect(s, Failure(NoSuchInterface(ifName)))
    case Some(ifIndex) =>
      var applied := ApplyRequests(s, AddRemoveRequests(isAdd, ifIndex, prefixes));
      Effect(applied.store, FoldReturnCodes(applied.codes))
  }

  // ---------------------------------------------------------------------------
  // getIfaceAddresses

  /** The family filter: zero matches every family. */
  predicate FamilyMatches(family: int, a: IfAddress) {
    family == 0 || a.Family() == family
  }

  /** An address passes the getIfaceAddresses filter. */
  predicate Selected(a: IfAddress, ifIndex: int, family: int, scope: int) {
    a.ifIndex == ifIndex && FamilyMatches(family, a) && a.scope == scope
  }

  /**
   * The prefixes of the selected addresses, in order; fails when a selected
   * address has no prefix.
   */
  function FilterIfAddresses(addrs: seq<IfAddress>, ifIndex: int, family: int, scope: int): (r: Result<seq<Prefix>, HandlerError>)
    ensures r.Success? <==> forall a | a in addrs && Selected(a, ifIndex, family, scope) :: a.prefix.Some?
    ensures r.Failure? ==> r.error == MissingPrefix
    ensures r.Success? ==>
      forall p :: p in r.value <==> exists a | a in addrs :: Selected(a, ifIndex, family, scope) && a.prefix == Some(p)
    ensures r.Success? ==> |r.value| <= |addrs|
  {
    if addrs == [] then Success([])
    else
      assert forall a | a in addrs :: a == addrs[0] || a in addrs[1..];
      var rest := FilterIfAddresses(addrs[1..], ifIndex, family, scope);
      if !Selected(addrs[0], ifIndex, family, scope) then rest
      else if addrs[0].prefix.None? then Failure(MissingPrefix)
      else if rest.Failure? then rest
      else Success([addrs[0].prefix.value] + rest.value)
  }

  /** The filter keeps the order of the addresses: it distributes over concatenation. */
  lemma {:induction false} FilterAppend(xs: seq<IfAddress>, ys: seq<IfAddress>, ifIndex: int, family: int, scope: int)
    ensures FilterIfAddresses(xs + ys, ifIndex, family, scope) ==
      var a := FilterIfAddresses(xs, ifIndex, family, scope);
      var b := FilterIfAddresses(ys, ifIndex, family, scope);
      if a.Failure? then a else if b.Failure? then b else Success(a.value + b.value)
  {
    if xs == [] {
      assert xs + ys == ys;
      var b := FilterIfAddresses(ys, ifIndex, family, scope);
      if b.Success? {
        assert [] + b.value == b.value;
      }
    } else {
      assert (xs + ys)[1..] == xs[1..] + ys;
      assert (xs + ys)[0] == xs[0];
      FilterAppend(xs[1..], ys, ifIndex, family, scope);
      var a := FilterIfAddresses(xs[1..], ifIndex, family, scope);
      var b := FilterIfAddresses(ys, ifIndex, family, scope);
      if Selected(xs[0], ifIndex, family, scope) && xs[0].prefix.Some? && a.Success? && b.Success? {
        var p := xs[0].prefix.value;
        assert [p] + (a.value + b.value) == ([p] + a.value) + b.value;
      }
    }
  }

  /**
   * semifuture_getIfaceAddresses: resolve the interface by name, then the
   * prefixes of all its addresses of the given scope (and family, unless it
   * is zero), in the order the store enumerates them.
   */
  function GetIfaceAddresses(s: Store, ifName: string, family: int, scope: int): (r: Result<seq<Prefix>, HandlerError>)
    ensures GetIfIndex(s.links, ifName).None? ==> r == Failure(NoSuchInterface(ifName))
    ensures GetIfIndex(s.links, ifName).Some? ==>
      (r.Success? <==> forall a | a in GetAllIfAddresses(s) && Selected(a, GetIfIndex(s.links, ifName).value, family, scope) :: a.prefix.Some?)
    ensures GetIfIndex(s.links, ifName).Some? && r.Failure? ==> r.error == MissingPrefix
    ensures GetIfIndex(s.links, ifName).Some? && r.Success? ==>
      forall p :: p in r.value <==>
        exists a | a in GetAllIfAddresses(s) :: Selected(a, GetIfIndex(s.links, ifName).value, family, scope) && a.prefix == Some(p)
  {
    match GetIfIndex(s.links, ifName)
    case None => Failure(NoSuchInterface(ifName))
    case Some(ifIndex) => FilterIfAddresses(GetAllIfAddresses(s), ifIndex, family, scope)
  }

  // ---------------------------------------------------------------------------
  // syncIfaceAddresses

  /** The elements of `xs` that do not occur in `ys`, in order (duplicates kept). */
  function Missing(xs: seq<Prefix>, ys: seq<Prefix>): (r: seq<Prefix>)
    ensures forall p :: p in r <==> p in xs && p !in ys
  {
    if xs == [] then []
    else
      assert forall p | p in xs :: p == xs[0] || p in xs[1..];
      (if xs[0] in ys then [] else [xs[0]]) + Missing(xs[1..], ys)
  }

  /** The prefixes a batch asks to add. */
  function AddedPrefixes(rs: seq<Request>): set<Prefix> {
    set q | q in rs && q.isAdd && q.addr.prefix.Some? :: q.addr.prefix.value
  }

  /** The prefixes a batch asks to delete. */
  function DeletedPrefixes(rs: seq<Request>): set<Prefix> {
    set q | q in rs && !q.isAdd && q.addr.prefix.Some? :: q.addr.prefix.value
  }

  function SetOf(ps: seq<Prefix>): set<Prefix> {
    set p | p in ps
  }

  /** One request per prefix, all for `ifIndex` and with the caller's `scope`. */
  function ScopedRequests(isAdd: bool, ifIndex: int, scope: int, prefixes: seq<Prefix>): (rs: seq<Request>)
    ensures |rs| == |prefixes|
    ensures forall q | q in rs :: q.isAdd == isAdd && q.addr.ifIndex == ifIndex && q.addr.scope == scope && q.addr.prefix.Some?
    ensures isAdd ==> AddedPrefixes(rs) == SetOf(prefixes) && DeletedPrefixes(rs) == {}
    ensures !isAdd ==> DeletedPrefixes(rs) == SetOf(prefixes) && AddedPrefixes(rs) == {}
  {
    var rs := seq(|prefixes|, i requires 0 <= i < |prefixes| => Request(isAdd, IfAddress(ifIndex, Some(prefixes[i]), scope)));
    assert forall p | p in SetOf(prefixes) :: Request(isAdd, IfAddress(ifIndex, Some(p), scope)) in rs by {
      forall p | p in SetOf(prefixes) ensures Request(isAdd, IfAddress(ifIndex, Some(p), scope)) in rs {
        var i :| 0 <= i < |prefixes| && prefixes[i] == p;
        assert rs[i] == Request(isAdd, IfAddress(ifIndex, Some(p), scope));
      }
    }
    rs
  }

  lemma PrefixesOfConcat(xs: seq<Request>, ys: seq<Request>)
    ensures AddedPrefixes(xs + ys) == AddedPrefixes(xs) + AddedPrefixes(ys)
    ensures DeletedPrefixes(xs + ys) == DeletedPrefixes(xs) + DeletedPrefixes(ys)
  {
    assert forall q :: q in xs + ys <==> q in xs || q in ys;
  }

  /**
   * The sync diff: adds for the desired prefixes that are not current,
   * then deletes for the current prefixes that are not desired, all for
   * `ifIndex` with the caller's scope.
   */
  function SyncRequests(ifIndex: int, scope: int, oldAddrs: seq<Prefix>, newAddrs: seq<Prefix>): (rs: seq<Request>)
    ensures forall q | q in rs :: q.addr.ifIndex == ifIndex && q.addr.scope == scope && q.addr.prefix.Some?
    ensures AddedPrefixes(rs) == SetOf(newAddrs) - SetOf(oldAddrs)
    ensures DeletedPrefixes(rs) == SetOf(oldAddrs) - SetOf(newAddrs)
    ensures forall i, j | 0 <= i < j < |rs| :: rs[j].isAdd ==> rs[i].isAdd
  {
    var adds := ScopedRequests(true, ifIndex, scope, Missing(newAddrs, oldAddrs));
    var dels := ScopedRequests(false, ifIndex, scope, Missing(oldAddrs, newAddrs));
    PrefixesOfConcat(adds, dels);
    assert forall q | q in adds + dels :: q in adds || q in dels;
    assert forall i | 0 <= i < |adds + dels| :: (adds + dels)[i].isAdd <==> i < |adds| by {
      forall i | 0 <= i < |adds + dels| ensures (adds + dels)[i].isAdd <==> i < |adds| {
        if i < |adds| { assert adds[i] in adds; } else { assert dels[i - |adds|] in dels; }
      }
    }
    assert SetOf(Missing(newAddrs, oldAddrs)) == SetOf(newAddrs) - SetOf(oldAddrs);
    assert SetOf(Missing(oldAddrs, newAddrs)) == SetOf(oldAddrs) - SetOf(newAddrs);
    adds + dels
  }

  /**
   * semifuture_syncIfaceAddresses: read the interface's current addresses of
   * the given family and scope, issue the sync diff, and fold the codes.
   */
  function SyncIfaceAddresses(s: Store, ifName: string, family: int, scope: int, newAddrs: seq<Prefix>): (r: Effect<()>)
    ensures GetIfIndex(s.links, ifName).None? ==> r == Effect(s, Failure(NoSuchInterface(ifName)))
    ensures GetIfaceAddresses(s, ifName, family, scope).Failure? ==> r.store == s && r.result.Failure?
    ensures r.store.links == s.links
    ensures Valid(s) ==> Valid(r.store)
  {
    match GetIfIndex(s.links, ifName)
    case None => Effect(s, Failure(NoSuchInterface(ifName)))
    case Some(ifIndex) =>
      match GetIfaceAddresses(s, ifName, family, scope)
      case Failure(e) => Effect(s, Failure(e))
      case Success(oldAddrs) =>
        var applied := ApplyRequests(s, SyncRequests(ifIndex, scope, oldAddrs, newAddrs));
        Effect(applied.store, FoldReturnCodes(applied.codes))
  }
}

=== FILE: wrappers.dfy ===
/** Optional values and results shared by the netlink model. */
module Wrappers {

  /** An optional value: `std::optional` in the system being modelled. */
  datatype Option<+T> = None | Some(value: T)

  /** Either a value or an error: a future that is fulfilled or carries an exception. */
  datatype Result<+R, +E> = Success(value: R) | Failure(error: E)
}
